=== FILE: README.md ===
# OpenSL ES audio pipeline and Drive game-data selection, modelled in Dafny

This project models the decision and arithmetic layer of the mupen64plus
OpenSL ES audio plugin (`mupen64plus-audio-sles/src/main.cpp`). It also
models the file-selection logic of the Android front end's Google Drive
game-data download service (`DownloadFromGoogleDriveService.java`).

In the plugin, the emulator hands over chunks of 16-bit stereo audio at the
game's sample rate. The model covers:

- `AiDacrateChanged`: derives that rate from the DAC rate register.
- `InitializeAudio`: picks an output rate and rebuilds the buffers.
- `SetSpeedFactor`: guards the playback-speed percentage.
- `AiLenChanged`: queues each chunk and paces the emulation thread against
  wall-clock time, with a busy-wait hysteresis.
- The consumer threads: pop chunks, and in stretch mode adapt the playback
  tempo to how full the device queue is and to a moving average of chunk
  arrival times.
- `processAudio`: copies each chunk through a channel transform and submits
  what the stretch engine yields, round-robin, to a pool of 100 secondary
  buffers.
- `queueCallback`: records how many buffers the device still holds.

In the download service, a run covers either one requested game or every
game in the database. A remote entry is downloaded when some game claims it
by exact directory name or by name prefix. The loop shows each downloaded
entry's name cut to 30 characters and stops early when the user cancels.

Modules, one per part of the program:

| module | file | covers |
|---|---|---|
| `Common` | common.dfy | `Option`, `byte`, and C's truncating division, `int` wrap-around, `(int)` cast and `round` |
| `Plugin` | plugin.dfy | `AiDacrateChanged`, `InitializeAudio`, `SetSpeedFactor` |
| `DeviceQueue` | device_queue.dfy | `queueCallback`, the drain loop and round-robin of `processAudio` |
| `ChannelSwap` | channel_swap.dfy | the per-frame copy of `processAudio` |
| `Pacing` | pacing.dfy | `AiLenChanged` |
| `FeedWindow` | feed_window.dfy | `GetAverageTime` and the moving-average ring window |
| `Tempo` | tempo.dfy | queue thresholds and the tempo decision of `audioConsumerStretch` |
| `Consumers` | consumers.dfy | the hand-off queue, `processAudio`, one iteration of each consumer thread |
| `DriveDownload` | drive_download.dfy | `isSimilar`, `containsSimlar`, mode classification, item list, name truncation, file loop |

The model makes these choices:

- Doubles and floats are `real`.
- A double that may have become infinite or NaN in the tempo controller is
  `Tempo.Adjustment.NonFinite`.
- Unsigned 32-bit arithmetic is written out wherever the plugin relies on it.
- Wall-clock time, device results, what the stretch engine yields, and the
  cancel flag are all inputs.

Behaviour of the code worth knowing before reading the contracts:

- **Tempo range.** There is no clamp: an adjustment outside (0.2, 3.0), or
  a non-finite one, leaves the tempo as it was (`Tempo.Adopt`).
- **Device occupancy.** `value` is written only by initialisation and by
  the callback, which stores `limit - count`; it is never decremented on
  submission. The device queue holds twice the pool, so `value` ranges over
  `[-100, 100]`
  (`DeviceQueue.CallbackValueRange`, `DeviceQueue.CallbackCanGoNegative`).
- **When buffers are submitted.** A yield is submitted when `value > 0`,
  whatever the number of buffers in flight.
- **When pacing runs.** Pacing runs when the speed-limiter query returns
  false (`Pacing.AiLenChanged`).
- **Drift guard.** A slack below -0.1 s moves the pacing origin 0.1 s
  later.
- **Switching busy-wait off.** Positive-slack calls are counted while
  spinning, whether consecutive or not (`Pacing.UpdateHysteresis`).
- **Pacing reset and warm-up.** Re-originating the pacing clock also zeroes
  the processed-buffer count shared with the consumer, so the stretching
  consumer re-enters its warm-up (`Consumers.ResetThenStretch`).
- **Oversized chunks.** A chunk at least as large as the primary buffer is
  not copied, but `length / 4` frames are still fed from the primary
  buffer (see "Left out").
- **Window constants.** The window constants are 500, 50 and 0.01666.
- **Tempo step.** The tempo moves on a grid of 4% steps (`Tempo.Quantize`).

## Model

| member | source | states |
|---|---|---|
| Common.CDiv | mupen64plus-audio-sles/src/main.cpp:308-314 | C integer division truncates toward zero: for a non-negative dividend the quotient is the largest `q` with `q*b <= a`, and for a negative one the smallest with `a <= q*b` |
| Common.ToInt32 | mupen64plus-audio-sles/src/main.cpp:976 | an unsigned 32-bit result stored in an `int` lands in the signed 32-bit range and agrees with the unsigned value modulo 2^32 |
| Common.Trunc | mupen64plus-audio-sles/src/main.cpp:807 | the `(int)` cast of a double rounds toward zero: within 1 of the value, on the side of zero |
| Common.Round | mupen64plus-audio-sles/src/main.cpp:885 | `round` gives an integer within 0.5 of its argument, and halfway cases go away from zero |
| Plugin.GameFrequency | mupen64plus-audio-sles/src/main.cpp:640-653 | the game frequency is the largest `f` with `f*(register+1)` not above the system's clock (PAL 49656530, MPAL 48628316, NTSC and unknown 48681812) |
| Plugin.GameFrequencyAntitone | mupen64plus-audio-sles/src/main.cpp:640-653 | a larger DAC register never gives a higher game frequency |
| Plugin.AcceptedRegisters | mupen64plus-audio-sles/src/main.cpp:640-653 | the derived frequency passes the 4000 Hz floor exactly when `4000*(register+1)` fits in the clock |
| Plugin.SelectOutputRate | mupen64plus-audio-sles/src/main.cpp:307-344 | selection 0 maps frequency bands below 12000, 12000-22999, 23000-32999 and from 33000 up to 11025, 22050, 32000 and 44100, in both directions; a non-zero selection is used exactly when it is 16000, 24000, 32000, 44100 or 48000, and otherwise 32000 is used |
| Plugin.InitializeAudio | mupen64plus-audio-sles/src/main.cpp:285-467 | the configuration is always reloaded; a request below 4000 Hz or after a critical failure changes nothing else (the game frequency falls back to the configured default); otherwise the game and output rates are set, the occupancy record and buffer index are fresh, and the device outcome decides between a running consumer (stretching exactly when configured) and a latched critical failure with no buffers |
| Plugin.InitializeIdempotent | mupen64plus-audio-sles/src/main.cpp:285-359 | when the device comes up, initialising twice with the same configuration and request equals initialising once |
| Plugin.AiDacrateChanged | mupen64plus-audio-sles/src/main.cpp:634-656 | nothing happens before start-up; once started, the call is `InitializeAudio` at the register's divided frequency, so an acceptable register without a latched failure sets that frequency, the output rate selected for it, a fresh device record and a consumer exactly when the device comes up, while a register below 4000 Hz or a latched failure only reloads the configuration |
| Plugin.SetSpeedFactor | mupen64plus-audio-sles/src/main.cpp:1078-1083 | the speed factor changes exactly when the plugin is started and the percentage is in [10, 300], and a valid factor stays valid |
| DeviceQueue.Fresh | mupen64plus-audio-sles/src/main.cpp:357-359 | initialisation sets value and limit to the pool size (100), zeroes errors and processed count, and leaves the buffer index at 0 |
| DeviceQueue.QueueCallback | mupen64plus-audio-sles/src/main.cpp:969-978 | only a successful state query writes `value`, as the signed 32-bit value congruent to `limit - count` modulo 2^32; nothing else in the record changes |
| DeviceQueue.CallbackValueRange | mupen64plus-audio-sles/src/main.cpp:969-978 | with the pool-sized limit and at most 200 buffers outstanding, `value` is `100 - count`, anywhere in [-100, 100] |
| DeviceQueue.CallbackCanGoNegative | mupen64plus-audio-sles/src/main.cpp:975-977 | 150 outstanding buffers give a value of -50 |
| DeviceQueue.EnqueueRound | mupen64plus-audio-sles/src/main.cpp:1028-1041 | the buffer index advances (wrapping at 100) exactly when frames were produced and `value > 0`, whether or not the device accepts; errors grow by one per rejected submission |
| DeviceQueue.Drain | mupen64plus-audio-sles/src/main.cpp:1022-1042 | after draining, the index has moved by the number of non-empty yields modulo 100 and errors by the number of rejections; the k-th submission uses buffer `index+k` mod 100 with 4 bytes per frame; with `value <= 0` nothing is submitted and nothing changes |
| ChannelSwap.SwapHalves | mupen64plus-audio-sles/src/main.cpp:985-992 | every frame `[b0,b1,b2,b3]` becomes `[b2,b3,b0,b1]`: each output byte comes from the position that exchanging 16-bit halves maps it to |
| ChannelSwap.SwapHalvesInvolution | mupen64plus-audio-sles/src/main.cpp:985-992 | exchanging the halves twice gives back the original chunk |
| ChannelSwap.Transform | mupen64plus-audio-sles/src/main.cpp:984-1002 | with flag 0 every frame has its halves exchanged, with any other flag it is copied unchanged; the length is kept |
| ChannelSwap.TransformPrefix | mupen64plus-audio-sles/src/main.cpp:984-1002 | the first whole frames of a transformed chunk are the transform of its first whole frames, so the transform works frame by frame |
| ChannelSwap.CopiedLength | mupen64plus-audio-sles/src/main.cpp:984 | the loop writes the chunk length rounded up to a multiple of 4, which is less than one frame past the chunk |
| ChannelSwap.CopyFitsPrimary | mupen64plus-audio-sles/src/main.cpp:981-984 | a chunk shorter than a frame-aligned primary buffer is copied without writing past that buffer, even when it ends mid-frame |
| ChannelSwap.CopyLoop | mupen64plus-audio-sles/src/main.cpp:984-1002 | the loop writes each of the rounded-up bytes from its transformed source position and nothing past them |
| ChannelSwap.WholeFramesOfCopy | mupen64plus-audio-sles/src/main.cpp:984-1019 | the `length / 4` whole frames fed from the primary buffer are the transform of the chunk's whole frames; the bytes read past the chunk reach only its partial last frame |
| ChannelSwap.FillPrimary | mupen64plus-audio-sles/src/main.cpp:980-1004 | a chunk shorter than the primary buffer has its length rounded up to whole frames written with the transformed frames of the chunk followed by the bytes after it in memory, and every later byte is left alone; the rounded length never exceeds a frame-aligned primary buffer; a frame-aligned chunk is written exactly; a chunk at least as long leaves the buffer untouched |
| Pacing.UpdateHysteresis | mupen64plus-audio-sles/src/main.cpp:731-753 | non-positive slack counts toward spinning and positive slack resets that count; the 30th count switches spinning on and clears both counters; while spinning, the 30th positive call switches it off; the counters stay within their bounds |
| Pacing.EnableCountIsStreak | mupen64plus-audio-sles/src/main.cpp:733-743 | from the start, the enable counter equals the length of the current run of non-positive slack modulo 30 |
| Pacing.BusyWaitEnablesOnThirtieth | mupen64plus-audio-sles/src/main.cpp:739-743 | spinning is switched on exactly by a call that completes a run of non-positive slack whose length is a multiple of 30 |
| Pacing.ElapsedGameTime | mupen64plus-audio-sles/src/main.cpp:714-716 | the game time multiplied by frequency and speed percentage gives 100 times the elapsed frames |
| Pacing.SleepCeiling | mupen64plus-audio-sles/src/main.cpp:722 | the longest waited slack is 0.5 s scaled inversely by speed: ceiling times percentage is 50 |
| Pacing.AiLenChanged | mupen64plus-audio-sles/src/main.cpp:664-769 | after a failure or before start-up nothing happens; otherwise the chunk is queued with its bytes; the origin is reset exactly on the first call, a cleared reset flag, or a speed or limiter change, and a reset stamps the chunk 0, restarts the frame count from this chunk and zeroes the shared processed-buffer count (left alone otherwise); pacing runs exactly when the limiter query is false; the reset flag is cleared exactly for slack below -5 or above the ceiling; slack below -0.1 moves the origin 0.1 s later; a wait of exactly the slack happens exactly for slack in (0, ceiling), spinning when the updated hysteresis says so |
| Pacing.ResetIsLazy | mupen64plus-audio-sles/src/main.cpp:689-724 | a call that clears the reset flag keeps its origin, and the next call re-originates: its chunk is stamped 0, the frame count holds only that chunk, and the shared processed-buffer count is 0 |
| Pacing.SleepKeepsOrigin | mupen64plus-audio-sles/src/main.cpp:758-767 | a wait is requested only when the reset flag stays set and the origin did not move, for a duration inside (0, ceiling) |
| FeedWindow.GetAverageTime | mupen64plus-audio-sles/src/main.cpp:776-783 | the result times the count equals the sum of the first `numTimes` entries |
| FeedWindow.Mean | mupen64plus-audio-sles/src/main.cpp:776-783 | the mean of the first `n` entries, for `n` at least 1: times `n` it equals their sum, the value `GetAverageTime` returns |
| FeedWindow.Initial | mupen64plus-audio-sles/src/main.cpp:828-839 | the window starts unfilled at index 0, 50 entries long, with both averages at 0.01666 s |
| FeedWindow.ChunkGameTime | mupen64plus-audio-sles/src/main.cpp:914 | a chunk's game time times 4 bytes per frame times the frequency is its length in bytes |
| FeedWindow.Record | mupen64plus-audio-sles/src/main.cpp:907-921 | only the slot at the write index changes in each buffer (to the arrival gap and the game time); both averages are over the first `index+1` entries before the first wrap and the whole window after it; the index advances and wraps to 0, marking the window filled, once it reaches the window length |
| FeedWindow.ResizeAsWritten | mupen64plus-audio-sles/src/main.cpp:923-927 | below 500 the new length is the truncation of 0.01666 / average * 50, and it is 500 exactly when that quotient is at least 500; it is 0 once the average chunk exceeds 50 nominal chunks |
| FeedWindow.ResizeCorrected | mupen64plus-audio-sles/src/main.cpp:923-927 | the corrected length is between 1 and 500 and differs from the source's only where that is 0 |
| FeedWindow.StepAsWritten | mupen64plus-audio-sles/src/main.cpp:907-927 | a window update as the source does it keeps the buffer shapes and the filled flag, with the unbounded-below length |
| FeedWindow.WindowCollapsesToZero | mupen64plus-audio-sles/src/main.cpp:912-927 | two 65532-byte chunks at 8000 Hz from the initial window leave it filled with length 0, so the next averages run over zero entries |
| FeedWindow.StepCorrected | mupen64plus-audio-sles/src/main.cpp:907-927 | with the corrected length every update keeps a window of length at least 1, so the next averages run over at least one entry |
| Tempo.QueueSizing | mupen64plus-audio-sles/src/main.cpp:803-811 | the upper threshold is the scaled target plus 30, truncated and capped at limit minus 20; the lower is the scaled target, truncated and not capped |
| Tempo.MinMayExceedMax | mupen64plus-audio-sles/src/main.cpp:806-811 | at 48000 Hz with 64-frame buffers and target 20, the lower threshold (114) exceeds the capped upper one (80) |
| Tempo.UncappedThresholdsOrdered | mupen64plus-audio-sles/src/main.cpp:803-811 | when the cap at limit minus 20 does not apply, the lower threshold is at most the upper one, since both scale the same non-negative factor and the cast keeps order |
| Tempo.Plus | mupen64plus-audio-sles/src/main.cpp:866-874 | a sum is finite exactly when both terms are |
| Tempo.SpeedUp | mupen64plus-audio-sles/src/main.cpp:866-869 | the speed-up term times the span from the lower threshold to the limit is half the queue's excess over the lower threshold; it is non-finite exactly when that span is 0 |
| Tempo.Quantize | mupen64plus-audio-sles/src/main.cpp:885-887 | an in-band adjustment becomes the multiple of 0.04 whose step count is the adjustment's 25-fold rounded half away from zero, within 0.02 of it, inside [0.2, 3.0] |
| Tempo.QuantizeHalfwayRoundsUp | mupen64plus-audio-sles/src/main.cpp:885-887 | an adjustment of exactly 1.5 (37.5 steps) becomes 1.52, not 1.48 |
| Tempo.InitialController | mupen64plus-audio-sles/src/main.cpp:800-819 | the controller starts not draining, with both adjustments 1 and the tempo at the speed factor |
| Tempo.Adopt | mupen64plus-audio-sles/src/main.cpp:881-890 | an adjustment strictly inside (0.2, 3.0) sets the tempo to its quantized 4% step; anything else, non-finite included, leaves the tempo unchanged (no clamping) |
| Tempo.ControllerStep | mupen64plus-audio-sles/src/main.cpp:852-890 | during warm-up only the tempo changes, to the speed factor; afterwards a too-full or draining queue that is not dry drains with ratio plus speed-up, a dry queue stops draining with ratio minus 0.05, a queue below the upper threshold follows the ratio, and a queue exactly at it keeps the old adjustment; the tempo follows the adjustment onto the 4% grid or stays |
| Tempo.TempoStaysOnGrid | mupen64plus-audio-sles/src/main.cpp:881-890 | after warm-up a tempo on the 4% grid within [0.2, 3.0] stays so |
| Tempo.StarvationSlowsDown | mupen64plus-audio-sles/src/main.cpp:872-890 | a dry queue stops draining and brings the tempo to at most the ratio minus 0.05 plus one half-step, never below 0.2 |
| Tempo.HealthyQueueKeepsUnitTempo | mupen64plus-audio-sles/src/main.cpp:876-890 | with the queue between the thresholds, not draining, and a ratio of 1, the tempo is exactly 1 |
| Consumers.Push | mupen64plus-audio-sles/src/main.cpp:711 | the producer appends the chunk after everything queued |
| Consumers.TryPop | mupen64plus-audio-sles/src/main.cpp:848 | a pop yields nothing from an empty queue, and otherwise the oldest chunk with the rest left in order |
| Consumers.QueueIsFifo | mupen64plus-audio-sles/src/main.cpp:711 | popping everything pushed yields the chunks in push order |
| Consumers.ProcessAudio | mupen64plus-audio-sles/src/main.cpp:980-1043 | the frames fed are the transform of the chunk's first `length/4` whole frames, read from the primary buffer, whose bytes past the rounded-up copy are unchanged; with `value > 0` the k-th yield goes to pool buffer `(index + k) mod 100` with its byte count, the index advances by the yields and each rejection is an error, otherwise the device record is unchanged |
| Consumers.FeedRatio | mupen64plus-audio-sles/src/main.cpp:852 | the ratio times the average feed time is the average game time, and it is non-finite exactly when the feed average is 0 |
| Consumers.StretchIteration | mupen64plus-audio-sles/src/main.cpp:841-931 | a timed-out pop changes nothing; otherwise the controller decides on `limit - value` read before the pop, the chunk's whole frames are transformed into the primary buffer, the submissions, index and errors follow the round-robin, the processed count grows by one, and the window is the corrected update recording the chunk, which stays sound |
| Consumers.StartFixedTempo | mupen64plus-audio-sles/src/main.cpp:941-947 | the fixed-tempo consumer starts with a tempo matching the current speed factor |
| Consumers.ReapplyTempo | mupen64plus-audio-sles/src/main.cpp:954-958 | the tempo changes only when the speed factor differs from the last one seen, and it always matches the remembered factor afterwards |
| Consumers.FixedIteration | mupen64plus-audio-sles/src/main.cpp:949-965 | a timed-out pop changes nothing; otherwise the tempo is re-applied only on a speed change; `value`, `limit` and the processed count never change; with `value > 0` the submissions go round-robin, the index advances by the yields and the errors grow by the rejections, and otherwise the device record is unchanged |
| Consumers.ResetThenStretch | mupen64plus-audio-sles/src/main.cpp:854-859 | a pacing reset followed by a stretching iteration zeroes the shared processed count, so the iteration is in warm-up: the controller is unchanged except that the tempo is the speed factor divided by 100, whatever the queue and averages, and the processed count becomes 1 |
| DriveDownload.IsSimilar | app/src/main/java/paulscode/android/mupen64plusae/task/DownloadFromGoogleDriveService.java:103-108 | an entry is similar exactly when its name equals either data directory or some prefix of it equals the good name or the header name |
| DriveDownload.EmptyNameMatchesEverything | app/src/main/java/paulscode/android/mupen64plusae/task/DownloadFromGoogleDriveService.java:103-108 | an item with an empty good name or header name claims every entry |
| DriveDownload.PrefixMatchExtends | app/src/main/java/paulscode/android/mupen64plusae/task/DownloadFromGoogleDriveService.java:103-108 | a name that starts with the good or header name stays claimed whatever is appended to it |
| DriveDownload.ContainsSimilar | app/src/main/java/paulscode/android/mupen64plusae/task/DownloadFromGoogleDriveService.java:111-119 | true exactly when some item in the list is similar to the name |
| DriveDownload.Classify | app/src/main/java/paulscode/android/mupen64plusae/task/DownloadFromGoogleDriveService.java:175-178 | single-game exactly when all four identifiers are present, all-data exactly when all four are absent |
| DriveDownload.ParseByte | app/src/main/java/paulscode/android/mupen64plusae/task/DownloadFromGoogleDriveService.java:193 | parsing succeeds exactly for a numeral (optional sign, one or more digits) whose value is in [-128, 127], and the result is that value |
| DriveDownload.ParseByteRoundTrip | app/src/main/java/paulscode/android/mupen64plusae/task/DownloadFromGoogleDriveService.java:193 | every byte value written in decimal parses back to itself |
| DriveDownload.ParseByteAcceptsNumerals | app/src/main/java/paulscode/android/mupen64plusae/task/DownloadFromGoogleDriveService.java:193 | "007", "+5" and "-0" parse to 7, 5 and 0 |
| DriveDownload.ParseByteRejectsOutOfRange | app/src/main/java/paulscode/android/mupen64plusae/task/DownloadFromGoogleDriveService.java:193 | "-128" parses, "128" and "-129" do not |
| DriveDownload.ParseByteRejectsMalformed | app/src/main/java/paulscode/android/mupen64plusae/task/DownloadFromGoogleDriveService.java:193 | the empty string, "1a" and "--1" do not parse |
| DriveDownload.AllDataItems | app/src/main/java/paulscode/android/mupen64plusae/task/DownloadFromGoogleDriveService.java:182-205 | the run fails exactly when some eligible section has an unparsable country code; otherwise every eligible section (not the header block, all four keys present) yields its item, and every item comes from such a section |
| DriveDownload.Prepare | app/src/main/java/paulscode/android/mupen64plusae/task/DownloadFromGoogleDriveService.java:175-217 | the download section (line 217) is entered exactly with permissions in single-game or all-data mode; all-data uses the database items, single-game one item whose good name, header name and both directory names (`gameDir1`, `gameDir2`, lines 207-213) are those of the requested game, and only an unparsable country code in all-data mode fails |
| DriveDownload.Truncate | app/src/main/java/paulscode/android/mupen64plusae/task/DownloadFromGoogleDriveService.java:242-246 | the shown name is the prefix of length min(length, 30) |
| DriveDownload.TruncateIdempotent | app/src/main/java/paulscode/android/mupen64plusae/task/DownloadFromGoogleDriveService.java:242-246 | truncating again changes nothing, and names of at most 30 characters are shown whole |
| DriveDownload.MatchingIsFilter | app/src/main/java/paulscode/android/mupen64plusae/task/DownloadFromGoogleDriveService.java:245 | an entry is downloaded exactly when it is listed and some item claims it |
| DriveDownload.SelectFiles | app/src/main/java/paulscode/android/mupen64plusae/task/DownloadFromGoogleDriveService.java:241-260 | the loop stops right after the first entry that sees the stop flag, or at the end; the downloads are the claimed entries among those examined, in order; each is shown truncated |

## Left out

- OpenSL ES, SoundTouch, threads and the Android and Drive APIs are not
  modelled. Device results, the frames the stretch engine yields, the
  limiter query, the clock, the cancel flag and the directory names from
  the preferences layer are inputs to the model.
- The callback runs concurrently with the consumer. The model treats each
  callback and each consumer iteration as atomic steps.
- The `FP_ENABLED` float path is not modelled, and neither is float rounding
  in the averages and tempo arithmetic.
- `CloseAudio`, `RomOpen`, `RomClosed`, plugin start-up, the volume entry
  points, the notification and service life cycle of the download service,
  and the download and delete calls are not modelled. They are I/O or
  lifecycle code.
- The convergence of the pacing slack over many calls is not stated. It
  depends on the real clock.
- Plugin.GameFrequency: requires a register below 2^32 - 1. The largest
  register wraps `register + 1` to 0 in unsigned arithmetic and divides by
  zero in the source.
- Pacing.AiLenChanged: requires a positive speed factor and game frequency.
  The speed factor is always within [10, 300], and a zero frequency would
  make the double division non-finite. The `unsigned long` frame count is
  not wrapped.
- Consumers.ProcessAudio: requires a chunk shorter than the primary buffer,
  and a primary buffer of whole frames, as the initialisation allocates it.
  For a longer chunk the source still feeds `length / 4` frames from the
  smaller buffer, reading past its end.
- ChannelSwap.FillPrimary: requires a primary buffer of whole frames. The
  bytes the copy loop reads past a chunk that ends mid-frame are an input;
  their contents are whatever follows the chunk in memory.
- Tempo.QueueSizing: requires a positive secondary buffer size, and so do
  `BufferMultiplier` and `ScaledCount`. The source reads the size from the
  configuration without checking it (main.cpp:290, 474). A size of 0 makes
  the multiplier infinite and the `(int)` casts at main.cpp:807-811
  undefined. A negative size already fails when the secondary buffers are
  created (main.cpp:274).
- Plugin.InitializeAudio: the primary buffer size in bytes is not wrapped to
  32 bits. The configured sizes are small.
- FeedWindow.GetAverageTime: requires a count of at least 1. A count of 0
  is the window collapse listed under "Findings".
- FeedWindow.StepCorrected: requires the new average game time to be
  positive. A zero average, from chunks of length 0, makes the source's
  window length the `(int)` cast of an infinite double.
- FeedWindow.StepAsWritten: requires a positive new average game time, for
  the same reason as `StepCorrected`.
- Consumers.StretchIteration: uses the corrected window length.
- DriveDownload.Prepare: the download section also needs a local destination
  folder, a remote game-data folder and a named local data directory
  (lines 223-237), and no I/O exception before the loop. These come from
  storage and Drive calls and are not modelled.
- DriveDownload.Prepare: in mixed mode the source still builds one item
  from absent names. The item is never consulted, so the plan carries none.
- DriveDownload.ParseByte: accepts only ASCII digits. Java also accepts
  other Unicode decimal digits.
- DriveDownload.Truncate: lengths are counted in `char`s. Java counts UTF-16
  code units.
- DriveDownload.SelectFiles: an I/O exception inside the loop, which ends
  the loop early, is not modelled.

## Findings

| source | as written | input that shows it | evidently intended | confidence | as-written member | corrected member |
|---|---|---|---|---|---|---|
| mupen64plus-audio-sles/src/main.cpp:923-927 | the window length becomes `(int)(0.01666 / averageGameTime * 50)`, capped at 500 but with no lower bound | starting from the initial window, two chunks of 65532 bytes at 8000 Hz (about 2.05 s of game audio each) leave the window filled with length 0, so the next `GetAverageTime` averages zero entries (0/0) | a window of at least one entry | not executed; follows from the formula for any average chunk longer than about 0.83 s | FeedWindow.StepAsWritten, FeedWindow.WindowCollapsesToZero | FeedWindow.StepCorrected |

=== FILE: channel_swap.dfy ===
/** The per-frame byte transform `processAudio` applies while copying a
    chunk into the primary buffer. A frame is four bytes: a 16-bit left
    sample followed by a 16-bit right sample. Note the polarity of the
    configuration flag: with `SwapChannels == 0` the two halves ARE
    exchanged, and with the flag set the frame is copied unchanged. */
module ChannelSwap {
  import opened Common

  /** Position in the input of the byte that lands at position `i` once the
      two 16-bit halves of every frame are exchanged. */
  function SwappedSource(i: nat): nat {
    if i % 4 < 2 then i + 2 else i - 2
  }

  /** Shifting a position by one frame shifts its source by one frame,
      and exchanging halves twice returns every position to itself. */
  lemma SwappedSourceFacts()
    ensures forall i: nat :: i >= 4 ==> SwappedSource(i) == SwappedSource(i - 4) + 4
    ensures forall i: nat :: SwappedSource(SwappedSource(i)) == i
  {
    forall i: nat | i >= 4
      ensures SwappedSource(i) == SwappedSource(i - 4) + 4
    {
      assert (i - 4) % 4 == i % 4;
    }
    forall i: nat
      ensures SwappedSource(SwappedSource(i)) == i
    {
      SourceInvolutive(i);
    }
  }

  /** Exchanging the halves twice returns a position to itself. */
  lemma SourceInvolutive(i: nat)
    ensures SwappedSource(SwappedSource(i)) == i
  {
    if i % 4 < 2 {
      assert (i + 2) % 4 == i % 4 + 2;
    } else {
      assert (i - 2) % 4 == i % 4 - 2;
    }
  }

  /** The sources of the four bytes of the frame starting at `i`. */
  lemma FrameSources(i: nat)
    requires i % 4 == 0
    ensures SwappedSource(i) == i + 2 && SwappedSource(i + 1) == i + 3
    ensures SwappedSource(i + 2) == i && SwappedSource(i + 3) == i + 1
  {
    assert (i + 1) % 4 == 1 && (i + 2) % 4 == 2 && (i + 3) % 4 == 3;
  }

  /** Exchange the two 16-bit halves of every frame: `[b0,b1,b2,b3]`
      becomes `[b2,b3,b0,b1]`. */
  function SwapHalves(b: seq<byte>): (r: seq<byte>)
    requires |b| % N64SampleBytes == 0
    ensures |r| == |b|
    ensures forall i :: 0 <= i < |b| ==> SwappedSource(i) < |b| && r[i] == b[SwappedSource(i)]
    decreases |b|
  {
    if |b| == 0 then []
    else
      var rest := SwapHalves(b[4..]);
      SwappedSourceFacts();
      [b[2], b[3], b[0], b[1]] + rest
  }

  /** Exchanging the halves twice gives back the chunk. */
  lemma SwapHalvesInvolution(b: seq<byte>)
    requires |b| % N64SampleBytes == 0
    ensures SwapHalves(SwapHalves(b)) == b
  {
    var once := SwapHalves(b);
    var s := SwapHalves(once);
    forall i | 0 <= i < |b|
      ensures s[i] == b[i]
    {
      SourceInvolutive(i);
      assert s[i] == once[SwappedSource(i)];
    }
  }

  /** The frames handed to the stretch engine for one chunk. */
  function Transform(buffer: seq<byte>, swapChannels: int): (r: seq<byte>)
    requires |buffer| % N64SampleBytes == 0
    ensures |r| == |buffer|
    ensures swapChannels != 0 ==> r == buffer
    ensures swapChannels == 0 ==> forall i :: 0 <= i < |buffer| ==> r[i] == buffer[SwappedSource(i)]
  {
    if swapChannels == 0 then SwapHalves(buffer) else buffer
  }

  /** The first frames of a transformed chunk are the transform of the
      chunk's first frames. */
  lemma TransformPrefix(b: seq<byte>, n: int, swapChannels: int)
    requires |b| % N64SampleBytes == 0 && n % N64SampleBytes == 0 && 0 <= n <= |b|
    ensures Transform(b, swapChannels)[..n] == Transform(b[..n], swapChannels)
  {
    var whole, prefix := Transform(b, swapChannels), Transform(b[..n], swapChannels);
    forall k | 0 <= k < n
      ensures whole[k] == prefix[k]
    {
      if swapChannels == 0 {
        assert SwappedSource(k) < n;
        assert prefix[k] == b[..n][SwappedSource(k)];
      }
    }
  }

  /** Two distinct frame boundaries are at least one frame apart. */
  lemma AlignedOrder(a: int, b: int)
    requires a % N64SampleBytes == 0 && b % N64SampleBytes == 0 && a < b
    ensures a + N64SampleBytes <= b
  {
    var p, q := a / 4, b / 4;
    assert a == 4 * p && b == 4 * q;
  }

  /** The number of bytes the copy loop writes for a chunk of `n` bytes: it
      steps a whole frame at a time while the index is below `n`, so `n`
      rounded up to whole frames. */
  function CopiedLength(n: nat): (r: nat)
    ensures r % N64SampleBytes == 0 && n <= r < n + N64SampleBytes
  {
    (n + 3) / 4 * 4
  }

  /** The bytes of the whole frames in a chunk of `n` bytes: the
      `n / 4` frames that are handed to the stretch engine. */
  function WholeFrames(n: nat): (m: nat)
    ensures m % N64SampleBytes == 0 && m <= n < m + N64SampleBytes
    ensures m == n / N64SampleBytes * N64SampleBytes
  {
    n / 4 * 4
  }

  /** A frame-aligned chunk is copied exactly. */
  lemma CopiedLengthAligned(n: nat)
    requires n % N64SampleBytes == 0
    ensures CopiedLength(n) == n
  {
    if n < CopiedLength(n) {
      AlignedOrder(n, CopiedLength(n));
    }
  }

  /** The copy of a chunk shorter than a frame-aligned primary buffer stays
      inside that buffer, even when the chunk ends mid-frame. */
  lemma CopyFitsPrimary(n: nat, p: nat)
    requires n < p && p % N64SampleBytes == 0
    ensures CopiedLength(n) <= p
  {
    if p < CopiedLength(n) {
      AlignedOrder(p, CopiedLength(n));
    }
  }

  /** What the copy loop leaves in the first `n` bytes: each byte from
      its source position under the transform. */
  predicate CopiedFrames(out: seq<byte>, src: seq<byte>, n: int, swapChannels: int)
    requires 0 <= n <= |out| && n <= |src|
  {
    forall k :: 0 <= k < n ==>
      SwappedSource(k) < |src| && out[k] == (if swapChannels == 0 then src[SwappedSource(k)] else src[k])
  }

  /** Copied frames are the transform of the source's first `n` bytes. */
  lemma CopiedFramesAreTransform(out: seq<byte>, src: seq<byte>, n: int, swapChannels: int)
    requires n % N64SampleBytes == 0 && 0 <= n <= |out| && n <= |src|
    requires CopiedFrames(out, src, n, swapChannels)
    ensures out[..n] == Transform(src[..n], swapChannels)
  {
    var t := Transform(src[..n], swapChannels);
    forall k | 0 <= k < n
      ensures out[k] == t[k]
    {
      if swapChannels == 0 {
        assert SwappedSource(k) < n;
      }
    }
  }

  /** One step of the copy loop: the four bytes of the frame at `i`. */
  function WriteFrame(out: seq<byte>, src: seq<byte>, i: int, swapChannels: int): (r: seq<byte>)
    requires i % 4 == 0 && 0 <= i && i + 4 <= |out| && i + 4 <= |src|
    ensures |r| == |out|
    ensures forall k :: 0 <= k < |out| ==>
              r[k] == (if i <= k < i + 4 then (if swapChannels == 0 then src[SwappedSource(k)] else src[k])
                       else out[k])
  {
    FrameSources(i);
    if swapChannels == 0 then
      // left channel takes the input's right sample, and vice versa
      out[i := src[i + 2]][i + 1 := src[i + 3]][i + 2 := src[i]][i + 3 := src[i + 1]]
    else
      out[i := src[i]][i + 1 := src[i + 1]][i + 2 := src[i + 2]][i + 3 := src[i + 3]]
  }

  /** Writing the frame at `i` extends the copied prefix by that frame and
      leaves the bytes after it alone. */
  lemma WriteFrameExtends(out: seq<byte>, src: seq<byte>, i: int, swapChannels: int)
    requires i % 4 == 0 && 0 <= i && i + 4 <= |out| && i + 4 <= |src|
    requires CopiedFrames(out, src, i, swapChannels)
    ensures CopiedFrames(WriteFrame(out, src, i, swapChannels), src, i + 4, swapChannels)
    ensures WriteFrame(out, src, i, swapChannels)[i + 4..] == out[i + 4..]
  {
    FrameSources(i);
  }

  /** The loop itself: from index 0, one frame per step, while the index
      is below `length`. It reads `src` and writes `out`, starting from the
      old primary buffer. */
  method CopyLoop(src: seq<byte>, length: nat, primary: seq<byte>, swapChannels: int)
    returns (out: seq<byte>)
    requires length < |primary| && |primary| % N64SampleBytes == 0
    requires CopiedLength(length) <= |src|
    ensures |out| == |primary| && CopiedLength(length) <= |primary|
    ensures out[CopiedLength(length)..] == primary[CopiedLength(length)..]
    ensures CopiedFrames(out, src, CopiedLength(length), swapChannels)
  {
    var n := CopiedLength(length);
    CopyFitsPrimary(length, |primary|);
    out := primary;
    var i := 0;
    while i < length
      invariant 0 <= i <= n && i % 4 == 0
      invariant |out| == |primary|
      invariant CopiedFrames(out, src, i, swapChannels)
      invariant out[i..] == primary[i..]
    {
      AlignedOrder(i, n);
      var next := WriteFrame(out, src, i, swapChannels);
      WriteFrameExtends(out, src, i, swapChannels);
      out, i := next, i + 4;
    }
    if i < n {
      AlignedOrder(i, n);
    }
  }

  /** The whole frames of a copy are the transform of the chunk's whole
      frames: the bytes read past the chunk only reach its last, partial
      frame. */
  lemma WholeFramesOfCopy(out: seq<byte>, buffer: seq<byte>, overrun: seq<byte>, swapChannels: int)
    requires |overrun| == N64SampleBytes - 1 && CopiedLength(|buffer|) <= |out|
    requires out[..CopiedLength(|buffer|)] == Transform((buffer + overrun)[..CopiedLength(|buffer|)], swapChannels)
    ensures out[..WholeFrames(|buffer|)] == Transform(buffer[..WholeFrames(|buffer|)], swapChannels)
  {
    var m, n := WholeFrames(|buffer|), CopiedLength(|buffer|);
    var src := (buffer + overrun)[..n];
    TransformPrefix(src, m, swapChannels);
    assert src[..m] == buffer[..m];
    assert out[..m] == out[..n][..m];
  }

  /** The copy step of `processAudio`: returns the new contents of the
      primary buffer. The chunk is copied only when it is strictly shorter
      than the primary buffer; otherwise the buffer is left as it was. The
      loop moves whole frames while the index is below the chunk length, so
      for a length that is not a multiple of 4 its last frame reads up to 3
      bytes past the chunk: `overrun` stands for whatever bytes follow the
      chunk in memory. The primary buffer holds whole frames, so every write
      stays inside it. */
  method FillPrimary(buffer: seq<byte>, overrun: seq<byte>, primary: seq<byte>, swapChannels: int)
    returns (out: seq<byte>)
    requires |overrun| == N64SampleBytes - 1
    requires |primary| % N64SampleBytes == 0
    ensures |out| == |primary|
    ensures |buffer| >= |primary| ==> out == primary
    ensures |buffer| < |primary| ==>
              var n := CopiedLength(|buffer|);
              && n <= |primary|
              && out[n..] == primary[n..]
              && out[..n] == Transform((buffer + overrun)[..n], swapChannels)
    ensures |buffer| < |primary| && |buffer| % N64SampleBytes == 0 ==>
              out[..|buffer|] == Transform(buffer, swapChannels)
  {
    out := primary;
    if |buffer| < |primary| {
      var src := buffer + overrun;
      var n := CopiedLength(|buffer|);
      out := CopyLoop(src, |buffer|, primary, swapChannels);
      CopiedFramesAreTransform(out, src, n, swapChannels);
      if |buffer| % N64SampleBytes == 0 {
        CopiedLengthAligned(|buffer|);
        assert src[..n] == buffer;
      }
    }
  }
}

=== FILE: common.dfy ===
/** Shared vocabulary: optional values, bytes, and the C integer and
    floating-point conversions the plugin relies on, written out explicitly
    because Dafny's integers are unbounded and its division is Euclidean. */
module Common {

  /** A Java reference that may be null, or a value that may be absent. */
  datatype Option<T> = None | Some(value: T)

  /** One byte of raw PCM data. */
  newtype byte = x: int | 0 <= x < 256

  /** Bytes per input frame: a 16-bit left and a 16-bit right sample. */
  const N64SampleBytes: int := 4

  const TwoTo31: int := 0x8000_0000
  const TwoTo32: int := 0x1_0000_0000

  /** C's `/` on integers: the quotient truncated toward zero. */
  function CDiv(a: int, b: int): (q: int)
    requires b > 0
    ensures a >= 0 ==> q * b <= a < (q + 1) * b
    ensures a < 0 ==> (q - 1) * b < a <= q * b
  {
    if a >= 0 then a / b else -((-a) / b)
  }

  /** The signed 32-bit value a C `int` receives from an unsigned 32-bit
      computation (two's complement reinterpretation). */
  function ToInt32(u: int): (r: int)
    requires 0 <= u < TwoTo32
    ensures -TwoTo31 <= r < TwoTo31
    ensures (r - u) % TwoTo32 == 0
  {
    if u < TwoTo31 then u else u - TwoTo32
  }

  /** C's `(int)` cast of a finite double: rounds toward zero. */
  function Trunc(x: real): (r: int)
    ensures x >= 0.0 ==> r as real <= x < r as real + 1.0
    ensures x < 0.0 ==> r as real - 1.0 < x <= r as real
  {
    if x >= 0.0 then x.Floor else -((-x).Floor)
  }

  /** The `(int)` cast preserves order. */
  lemma TruncMonotone(x: real, y: real)
    requires 0.0 <= x <= y
    ensures Trunc(x) <= Trunc(y)
  {
  }

  /** C's `round`: to the nearest integer, halfway cases away from zero. */
  function Round(x: real): (r: int)
    ensures x - 0.5 <= r as real <= x + 0.5
    ensures x >= 0.0 ==> r as real > x - 0.5
    ensures x < 0.0 ==> r as real < x + 0.5
  {
    if x >= 0.0 then (x + 0.5).Floor else -((-x + 0.5).Floor)
  }

  function Min(a: int, b: int): int { if a <= b then a else b }
}

=== FILE: consumers.dfy ===
/** The consumer side of the pipeline: the hand-off queue, `processAudio`,
    one iteration of the time-stretching consumer and one iteration of the
    fixed-tempo consumer. The stretch engine is abstract: what it yields
    after a chunk is fed is given as the sequence of non-zero frame counts
    it returns before returning 0, and the device's answer to every
    submission is given alongside. */
module Consumers {
  import opened Common
  import ChannelSwap
  import DeviceQueue
  import Pacing
  import FeedWindow
  import Tempo

  // ---------------------------------------------------------------------
  // The hand-off queue
  // ---------------------------------------------------------------------

  /** Chunks waiting for the consumer, oldest first. */
  type AudioQueue = seq<Pacing.Chunk>

  /** The producer appends; it never blocks and never drops. */
  function Push(q: AudioQueue, c: Pacing.Chunk): (r: AudioQueue)
    ensures |r| == |q| + 1 && r[|q|] == c && r[..|q|] == q
  {
    q + [c]
  }

  /** The consumer takes the oldest chunk, if there is one. */
  function TryPop(q: AudioQueue): (r: (Option<Pacing.Chunk>, AudioQueue))
    ensures |q| == 0 ==> r.0 == None && r.1 == q
    ensures |q| > 0 ==> r.0 == Some(q[0]) && q == [q[0]] + r.1
  {
    if |q| == 0 then (None, q) else (Some(q[0]), q[1..])
  }

  function PushAll(q: AudioQueue, cs: seq<Pacing.Chunk>): AudioQueue
    decreases |cs|
  {
    if |cs| == 0 then q else PushAll(Push(q, cs[0]), cs[1..])
  }

  /** Everything the consumer gets by popping until the queue is empty. */
  function PopAll(q: AudioQueue): seq<Pacing.Chunk>
    decreases |q|
  {
    var (c, rest) := TryPop(q);
    if c.None? then [] else [c.value] + PopAll(rest)
  }

  /** Pushing after what is already queued keeps both in order. */
  lemma {:induction false} PushAllAppends(q: AudioQueue, cs: seq<Pacing.Chunk>)
    ensures PushAll(q, cs) == q + cs
    decreases |cs|
  {
    if |cs| > 0 {
      PushAllAppends(Push(q, cs[0]), cs[1..]);
      assert q + [cs[0]] + cs[1..] == q + cs;
    }
  }

  /** The consumer sees the chunks in exactly the order they were pushed. */
  lemma {:induction false} QueueIsFifo(cs: seq<Pacing.Chunk>)
    ensures PopAll(PushAll([], cs)) == cs
  {
    PushAllAppends([], cs);
    assert [] + cs == cs;
    PopAllIdentity(cs);
  }

  lemma {:induction false} PopAllIdentity(q: AudioQueue)
    ensures PopAll(q) == q
    decreases |q|
  {
    if |q| > 0 {
      PopAllIdentity(q[1..]);
    }
  }

  // ---------------------------------------------------------------------
  // processAudio
  // ---------------------------------------------------------------------

  /** `processAudio`: copy the chunk into the primary buffer through the
      channel transform, feed its `length / 4` whole frames to the stretch
      engine, then submit what the engine yields round-robin. `overrun`
      stands for the bytes that follow the chunk in memory, which the copy
      loop reads when the length is not a multiple of 4. A chunk at least as
      long as the primary buffer is outside this model: the source warns
      but still feeds that many frames from the smaller buffer. */
  method ProcessAudio(
    primary: seq<byte>, swapChannels: int, data: seq<byte>, overrun: seq<byte>,
    out: DeviceQueue.Output, produced: seq<int>, accepted: seq<bool>)
    returns (primary': seq<byte>, fed: seq<byte>, out': DeviceQueue.Output, submitted: seq<DeviceQueue.Submission>)
    requires |overrun| == N64SampleBytes - 1
    requires |data| < |primary| && |primary| % N64SampleBytes == 0
    requires DeviceQueue.IndexInRange(out)
    requires |produced| == |accepted|
    requires forall k :: 0 <= k < |produced| ==> produced[k] > 0
    ensures |primary'| == |primary|
    ensures primary'[ChannelSwap.CopiedLength(|data|)..] == primary[ChannelSwap.CopiedLength(|data|)..]
    ensures |fed| == ChannelSwap.WholeFrames(|data|) && fed == primary'[..|fed|]
    ensures fed == ChannelSwap.Transform(data[..|fed|], swapChannels)
    ensures DeviceQueue.IndexInRange(out')
    ensures out'.sles.totalBuffersProcessed == out.sles.totalBuffersProcessed
    ensures DeviceQueue.Drained(out, out', produced, accepted, submitted)
    ensures out.sles.value <= 0 ==> out' == out
  {
    primary' := ChannelSwap.FillPrimary(data, overrun, primary, swapChannels);
    ChannelSwap.WholeFramesOfCopy(primary', data, overrun, swapChannels);
    fed := primary'[..ChannelSwap.WholeFrames(|data|)];
    out', submitted := DeviceQueue.Drain(out, produced, accepted);
  }

  // ---------------------------------------------------------------------
  // The time-stretching consumer
  // ---------------------------------------------------------------------

  /** Everything one iteration of the stretching consumer reads and writes. */
  datatype StretchState = StretchState(
    controller: Tempo.Controller,
    window: FeedWindow.Window,
    bounds: Tempo.QueueBounds,
    primary: seq<byte>,
    device: DeviceQueue.Output)

  /** The ratio of the average game time per chunk to the average time
      between chunks; a zero denominator gives a non-finite double. */
  function FeedRatio(w: FeedWindow.Window): (r: Tempo.Adjustment)
    ensures r.Finite? <==> w.averageFeedTime != 0.0
    ensures r.Finite? ==> r.v * w.averageFeedTime == w.averageGameTime
  {
    if w.averageFeedTime == 0.0 then Tempo.NonFinite
    else Tempo.Finite(w.averageGameTime / w.averageFeedTime)
  }

  /** One iteration of the stretching consumer. The queue length is the
      device limit minus the callback's `value`, read before the pop. When
      the pop times out nothing changes. Otherwise the controller decides
      the tempo, the chunk is processed, the processed count goes up by one
      and the averaging window records the chunk (with the corrected window
      length, see `FeedWindow.StepCorrected`). */
  method StretchIteration(
    s: StretchState, popped: Option<Pacing.Chunk>, overrun: seq<byte>, swapChannels: int, speedFactor: int,
    gameFreq: int, produced: seq<int>, accepted: seq<bool>)
    returns (r: StretchState, submitted: seq<DeviceQueue.Submission>)
    requires FeedWindow.Sound(s.window) && DeviceQueue.IndexInRange(s.device)
    requires gameFreq > 0
    requires |overrun| == N64SampleBytes - 1 && |s.primary| % N64SampleBytes == 0
    requires |produced| == |accepted|
    requires forall k :: 0 <= k < |produced| ==> produced[k] > 0
    requires popped.Some? ==>
               && |popped.value.data| < |s.primary|
               && FeedWindow.Record(s.window, popped.value.timeSinceStart,
                    FeedWindow.ChunkGameTime(|popped.value.data|, gameFreq)).averageGameTime > 0.0
    ensures FeedWindow.Sound(r.window) && DeviceQueue.IndexInRange(r.device)
    ensures r.bounds == s.bounds && |r.primary| == |s.primary|
    ensures r.device.sles.value == s.device.sles.value && r.device.sles.limit == s.device.sles.limit
    ensures popped.None? ==> r == s && submitted == []
    ensures popped.Some? ==> r.device.sles.totalBuffersProcessed == s.device.sles.totalBuffersProcessed + 1
    ensures popped.Some? ==>
              r.controller == Tempo.ControllerStep(
                s.controller, s.device.sles.totalBuffersProcessed, s.device.sles.limit,
                s.device.sles.limit - s.device.sles.value, s.bounds, FeedRatio(s.window), speedFactor)
    ensures popped.Some? && s.device.sles.totalBuffersProcessed >= s.device.sles.limit ==>
              r.controller.tempo == s.controller.tempo || Tempo.OnTempoGrid(r.controller.tempo)
    ensures popped.Some? ==> r.window.prevTime == popped.value.timeSinceStart
    ensures popped.Some? ==>
              r.window == FeedWindow.StepCorrected(s.window, popped.value.timeSinceStart, |popped.value.data|, gameFreq)
    ensures popped.Some? ==>
              var m := ChannelSwap.WholeFrames(|popped.value.data|);
              r.primary[..m] == ChannelSwap.Transform(popped.value.data[..m], swapChannels)
    ensures popped.Some? ==> DeviceQueue.Drained(s.device, r.device, produced, accepted, submitted)
  {
    if popped.None? {
      return s, [];
    }
    var chunk := popped.value;
    var sles := s.device.sles;
    var queueLength := sles.limit - sles.value;
    var controller := Tempo.ControllerStep(
      s.controller, sles.totalBuffersProcessed, sles.limit, queueLength, s.bounds,
      FeedRatio(s.window), speedFactor);
    var primary, fed, device;
    primary, fed, device, submitted :=
      ProcessAudio(s.primary, swapChannels, chunk.data, overrun, s.device, produced, accepted);
    device := device.(sles := device.sles.(totalBuffersProcessed := device.sles.totalBuffersProcessed + 1));
    var window := FeedWindow.StepCorrected(s.window, chunk.timeSinceStart, |chunk.data|, gameFreq);
    r := StretchState(controller, window, s.bounds, primary, device);
  }

  // ---------------------------------------------------------------------
  // The fixed-tempo consumer
  // ---------------------------------------------------------------------

  /** The fixed-tempo consumer's memory of the speed factor and the tempo
      it last gave the stretch engine. */
  datatype FixedTempo = FixedTempo(lastSpeedFactor: int, tempo: real)

  /** The tempo matches the remembered speed factor. */
  predicate Consistent(f: FixedTempo) {
    f.tempo * 100.0 == f.lastSpeedFactor as real
  }

  /** The state when the consumer thread starts. */
  function StartFixedTempo(speedFactor: int): (f: FixedTempo)
    ensures Consistent(f) && f.lastSpeedFactor == speedFactor
  {
    FixedTempo(speedFactor, speedFactor as real / 100.0)
  }

  /** Re-apply the tempo only when the speed factor differs from the one
      last seen. */
  function ReapplyTempo(f: FixedTempo, speedFactor: int): (r: FixedTempo)
    ensures r.lastSpeedFactor == speedFactor
    ensures f.lastSpeedFactor == speedFactor ==> r == f
    ensures r.tempo != f.tempo ==> f.lastSpeedFactor != speedFactor
    ensures Consistent(f) ==> Consistent(r)
    ensures f.lastSpeedFactor != speedFactor ==> Consistent(r)
  {
    if f.lastSpeedFactor != speedFactor then FixedTempo(speedFactor, speedFactor as real / 100.0)
    else f
  }

  /** One iteration of the fixed-tempo consumer: on a popped chunk, re-apply
      the tempo if needed and process the chunk. */
  method FixedIteration(
    f: FixedTempo, primary: seq<byte>, device: DeviceQueue.Output, popped: Option<Pacing.Chunk>,
    overrun: seq<byte>, swapChannels: int, speedFactor: int, produced: seq<int>, accepted: seq<bool>)
    returns (f': FixedTempo, primary': seq<byte>, device': DeviceQueue.Output, submitted: seq<DeviceQueue.Submission>)
    requires DeviceQueue.IndexInRange(device)
    requires |overrun| == N64SampleBytes - 1 && |primary| % N64SampleBytes == 0
    requires |produced| == |accepted|
    requires forall k :: 0 <= k < |produced| ==> produced[k] > 0
    requires popped.Some? ==> |popped.value.data| < |primary|
    ensures DeviceQueue.IndexInRange(device') && |primary'| == |primary|
    ensures popped.None? ==> f' == f && primary' == primary && submitted == []
    ensures popped.Some? ==> f'.lastSpeedFactor == speedFactor
    ensures Consistent(f) ==> Consistent(f')
    ensures f'.tempo != f.tempo ==> popped.Some? && f.lastSpeedFactor != speedFactor
    ensures device'.sles.value == device.sles.value && device'.sles.limit == device.sles.limit
    ensures device'.sles.totalBuffersProcessed == device.sles.totalBuffersProcessed
    ensures popped.None? || device.sles.value <= 0 ==> device' == device
    ensures popped.Some? && device.sles.value > 0 ==>
              && device'.bufferIndex == (device.bufferIndex + |produced|) % DeviceQueue.SecondaryBufferNbr
              && device'.sles.errors == device.sles.errors + DeviceQueue.Failures(accepted)
              && |submitted| == |produced|
    ensures popped.Some? ==> DeviceQueue.Drained(device, device', produced, accepted, submitted)
  {
    if popped.None? {
      return f, primary, device, [];
    }
    f' := ReapplyTempo(f, speedFactor);
    var fed;
    primary', fed, device', submitted :=
      ProcessAudio(primary, swapChannels, popped.value.data, overrun, device, produced, accepted);
  }

  // ---------------------------------------------------------------------
  // Producer and consumer together
  // ---------------------------------------------------------------------

  /** A pacing reset followed by one stretching iteration: the reset zeroes
      the shared processed-buffer count, so that iteration is back in the
      warm-up and sets the tempo from the speed factor alone, whatever the
      queue length and the averages say. */
  method ResetThenStretch(
    p: Pacing.PacingState, now: real, data: seq<byte>, limiterEnabled: bool,
    s: StretchState, popped: Pacing.Chunk, overrun: seq<byte>, swapChannels: int, speedFactor: int,
    gameFreq: int, produced: seq<int>, accepted: seq<bool>)
    returns (pacing: Pacing.Outcome, r: StretchState)
    requires speedFactor > 0 && gameFreq > 0
    requires Pacing.NeedsReset(p, speedFactor, limiterEnabled)
    requires s.device.sles.limit > 0
    requires FeedWindow.Sound(s.window) && DeviceQueue.IndexInRange(s.device)
    requires |overrun| == N64SampleBytes - 1 && |s.primary| % N64SampleBytes == 0
    requires |produced| == |accepted|
    requires forall k :: 0 <= k < |produced| ==> produced[k] > 0
    requires |popped.data| < |s.primary|
    requires FeedWindow.Record(s.window, popped.timeSinceStart,
               FeedWindow.ChunkGameTime(|popped.data|, gameFreq)).averageGameTime > 0.0
    ensures pacing.resetOrigin && pacing.chunk == Some(Pacing.Chunk(data, 0.0))
    ensures r.controller == s.controller.(tempo := speedFactor as real / 100.0)
    ensures r.device.sles.totalBuffersProcessed == 1
  {
    pacing := Pacing.AiLenChanged(p, s.device.sles, false, true, now, data, speedFactor, gameFreq, limiterEnabled);
    var shared := s.(device := s.device.(sles := pacing.sles));
    var submitted;
    r, submitted := StretchIteration(
      shared, Some(popped), overrun, swapChannels, speedFactor, gameFreq, produced, accepted);
  }
}

=== FILE: device_queue.dfy ===
/** The hardware buffer queue as the plugin sees it: the occupancy record
    written by the completion callback, and the round-robin over the pool of
    secondary buffers that `processAudio` submits to the device. */
module DeviceQueue {
  import opened Common

  /** Number of secondary buffers in the pool. The source keeps this at its
      compile-time default; the configured target count is a different value. */
  const SecondaryBufferNbr: int := 100

  /** The device queue is created with room for twice the pool size. */
  const DeviceQueueDepth: int := SecondaryBufferNbr * 2

  /** Bytes per output frame (16-bit stereo). */
  const SlesSampleBytes: int := 4

  /** The occupancy record shared with the completion callback. `value` is
      written only by initialisation and by the callback; nothing on the
      submission side decrements it, so it is NOT kept within `[0, limit]`. */
  datatype SlesState = SlesState(value: int, limit: int, errors: int, totalBuffersProcessed: int)

  /** Occupancy plus the index of the next secondary buffer to fill. */
  datatype Output = Output(sles: SlesState, bufferIndex: int)

  /** One submission to the device: which pool buffer and how many bytes. */
  datatype Submission = Submission(buffer: int, bytes: int)

  predicate IndexInRange(o: Output) {
    0 <= o.bufferIndex < SecondaryBufferNbr
  }

  /** The record as `InitializeAudio` sets it up, with the buffer index that
      the preceding `CloseAudio` resets to 0. */
  function Fresh(): (o: Output)
    ensures IndexInRange(o) && o.bufferIndex == 0
    ensures o.sles.value == o.sles.limit == SecondaryBufferNbr
    ensures o.sles.errors == 0 && o.sles.totalBuffersProcessed == 0
  {
    Output(SlesState(SecondaryBufferNbr, SecondaryBufferNbr, 0, 0), 0)
  }

  /** The completion callback. `count` is the device's count of buffers
      still queued, an unsigned 32-bit value; `limit - count` is computed in
      unsigned arithmetic and stored into a signed `int`. */
  function QueueCallback(s: SlesState, getStateOk: bool, count: int): (r: SlesState)
    requires -TwoTo31 <= s.limit < TwoTo31
    requires 0 <= count < TwoTo32
    ensures r.limit == s.limit && r.errors == s.errors
    ensures r.totalBuffersProcessed == s.totalBuffersProcessed
    ensures !getStateOk ==> r == s
    ensures getStateOk ==> -TwoTo31 <= r.value < TwoTo31
    ensures getStateOk ==> (r.value - (s.limit - count)) % TwoTo32 == 0
    ensures getStateOk && -TwoTo31 <= s.limit - count < TwoTo31 ==> r.value == s.limit - count
  {
    if getStateOk then
      s.(value := ToInt32((s.limit - count) % TwoTo32))
    else
      s
  }

  /** Whatever the device reports (at most its queue depth outstanding),
      the callback leaves `value` in `[limit - 2*pool, limit]`; with the
      pool-sized limit that is `[-100, 100]`, so it can be negative. */
  lemma CallbackValueRange(s: SlesState, getStateOk: bool, count: int)
    requires s.limit == SecondaryBufferNbr
    requires 0 <= count <= DeviceQueueDepth
    requires getStateOk
    ensures -SecondaryBufferNbr <= QueueCallback(s, getStateOk, count).value <= SecondaryBufferNbr
    ensures QueueCallback(s, getStateOk, count).value == SecondaryBufferNbr - count
  {
  }

  /** A reachable negative occupancy value: 150 buffers still queued. */
  lemma CallbackCanGoNegative()
    ensures QueueCallback(Fresh().sles, true, 150).value == -50
  {
  }

  /** One round of the drain loop: the stretch engine produced `outSamples`
      frames into the current buffer; they are submitted only when the
      callback last saw room (`value > 0`), and the index advances whether
      or not the device accepts them. */
  function EnqueueRound(o: Output, outSamples: int, accepted: bool): (r: Output)
    requires IndexInRange(o)
    ensures IndexInRange(r)
    ensures r.sles.value == o.sles.value && r.sles.limit == o.sles.limit
    ensures r.sles.totalBuffersProcessed == o.sles.totalBuffersProcessed
    ensures r.bufferIndex != o.bufferIndex <==> outSamples != 0 && o.sles.value > 0
    ensures r.bufferIndex == (if outSamples != 0 && o.sles.value > 0
                              then (o.bufferIndex + 1) % SecondaryBufferNbr
                              else o.bufferIndex)
    ensures r.sles.errors == o.sles.errors + (if outSamples != 0 && o.sles.value > 0 && !accepted then 1 else 0)
  {
    if outSamples != 0 && o.sles.value > 0 then
      var errors := if accepted then o.sles.errors else o.sles.errors + 1;
      var next := o.bufferIndex + 1;
      var index := if next > SecondaryBufferNbr - 1 then 0 else next;
      Output(o.sles.(errors := errors), index)
    else
      o
  }

  /** Number of rejected submissions among `results`. */
  function Failures(results: seq<bool>): (n: nat)
    ensures n <= |results|
  {
    if |results| == 0 then 0
    else Failures(results[..|results| - 1]) + (if results[|results| - 1] then 0 else 1)
  }

  /** Counting failures one result further. */
  lemma FailuresStep(results: seq<bool>, i: nat)
    requires i < |results|
    ensures Failures(results[..i + 1]) == Failures(results[..i]) + (if results[i] then 0 else 1)
  {
    assert results[..i + 1][..i] == results[..i];
  }

  /** Advancing the round-robin once more from `start + i`. */
  lemma NextIndex(start: int, i: nat)
    requires 0 <= start
    ensures (start + i + 1) % SecondaryBufferNbr
            == (if (start + i) % SecondaryBufferNbr + 1 > SecondaryBufferNbr - 1 then 0
                else (start + i) % SecondaryBufferNbr + 1)
  {
    var n := start + i;
    var q, k := n / SecondaryBufferNbr, n % SecondaryBufferNbr;
    assert n == q * SecondaryBufferNbr + k;
    if k + 1 < SecondaryBufferNbr {
      assert n + 1 == q * SecondaryBufferNbr + (k + 1);
    } else {
      assert n + 1 == (q + 1) * SecondaryBufferNbr;
    }
  }

  /** The effect of draining one chunk's yields, as `Drain` establishes it:
      `value` and `limit` are kept; with `value > 0` every yield is
      submitted to the next pool buffer in turn with its byte count, the
      index advances by the number of yields and every rejection counts as
      an error; otherwise nothing is submitted and nothing changes. */
  predicate Drained(o: Output, r: Output, produced: seq<int>, accepted: seq<bool>, submitted: seq<Submission>)
    requires |produced| == |accepted|
  {
    && r.sles.value == o.sles.value && r.sles.limit == o.sles.limit
    && (o.sles.value <= 0 ==>
          r.bufferIndex == o.bufferIndex && r.sles.errors == o.sles.errors && submitted == [])
    && (o.sles.value > 0 ==>
          && r.bufferIndex == (o.bufferIndex + |produced|) % SecondaryBufferNbr
          && r.sles.errors == o.sles.errors + Failures(accepted)
          && |submitted| == |produced|
          && forall k :: 0 <= k < |submitted| ==>
               submitted[k] == Submission((o.bufferIndex + k) % SecondaryBufferNbr, produced[k] * SlesSampleBytes))
  }

  /** The drain loop of `processAudio`. `produced` lists what the engine
      yields on successive calls before the call that yields 0 ends the loop;
      `accepted[k]` is the device's answer to the k-th submission. */
  method Drain(o: Output, produced: seq<int>, accepted: seq<bool>)
    returns (r: Output, submitted: seq<Submission>)
    requires IndexInRange(o)
    requires |produced| == |accepted|
    requires forall k :: 0 <= k < |produced| ==> produced[k] > 0
    ensures IndexInRange(r)
    ensures r.sles.value == o.sles.value && r.sles.limit == o.sles.limit
    ensures r.sles.totalBuffersProcessed == o.sles.totalBuffersProcessed
    ensures o.sles.value <= 0 ==> r == o && submitted == []
    ensures o.sles.value > 0 ==> r.bufferIndex == (o.bufferIndex + |produced|) % SecondaryBufferNbr
    ensures o.sles.value > 0 ==> r.sles.errors == o.sles.errors + Failures(accepted)
    ensures o.sles.value > 0 ==> |submitted| == |produced|
    ensures o.sles.value > 0 ==> forall k :: 0 <= k < |submitted| ==>
              submitted[k] == Submission((o.bufferIndex + k) % SecondaryBufferNbr, produced[k] * SlesSampleBytes)
    ensures Drained(o, r, produced, accepted, submitted)
  {
    r := o;
    submitted := [];
    var i := 0;
    while i < |produced|
      invariant 0 <= i <= |produced|
      invariant IndexInRange(r)
      invariant r.sles.value == o.sles.value && r.sles.limit == o.sles.limit
      invariant r.sles.totalBuffersProcessed == o.sles.totalBuffersProcessed
      invariant o.sles.value <= 0 ==> r == o && submitted == []
      invariant o.sles.value > 0 ==> r.bufferIndex == (o.bufferIndex + i) % SecondaryBufferNbr
      invariant o.sles.value > 0 ==> r.sles.errors == o.sles.errors + Failures(accepted[..i])
      invariant o.sles.value > 0 ==> |submitted| == i
      invariant o.sles.value > 0 ==> forall k :: 0 <= k < i ==>
                  submitted[k] == Submission((o.bufferIndex + k) % SecondaryBufferNbr, produced[k] * SlesSampleBytes)
    {
      if r.sles.value > 0 {
        submitted := submitted + [Submission(r.bufferIndex, produced[i] * SlesSampleBytes)];
      }
      FailuresStep(accepted, i);
      NextIndex(o.bufferIndex, i);
      r := EnqueueRound(r, produced[i], accepted[i]);
      i := i + 1;
    }
    assert accepted[..|produced|] == accepted;
  }
}

=== FILE: drive_download.dfy ===
/** The selection logic of the cloud game-data download service: which
    games a run covers, which remote entries belong to one of them, and how
    an entry's name is shown while it downloads. The Drive, storage and
    preferences calls are not modelled; the game-data directory names come
    in as a function parameter. */
module DriveDownload {
  import opened Common

  // ---------------------------------------------------------------------
  // Matching a remote entry against a game
  // ---------------------------------------------------------------------

  /** One game the run downloads data for: its two possible data
      directory names and the two names its entries may start with. */
  datatype GameDownloadItem = GameDownloadItem(
    gameDir1: string, gameDir2: string, romGoodName: string, romHeader: string)

  predicate StartsWith(s: string, prefix: string) {
    |prefix| <= |s| && s[..|prefix|] == prefix
  }

  /** `isSimilar`: the entry is named exactly like one of the two data
      directories, or its name starts with the good name or the header
      name. */
  function IsSimilar(item: GameDownloadItem, fileName: string): (b: bool)
    ensures b <==> || fileName == item.gameDir1 || fileName == item.gameDir2
                   || (exists k :: 0 <= k <= |fileName| && fileName[..k] == item.romGoodName)
                   || (exists k :: 0 <= k <= |fileName| && fileName[..k] == item.romHeader)
  {
    if StartsWith(fileName, item.romGoodName) then
      assert fileName[..|item.romGoodName|] == item.romGoodName;
      true
    else if StartsWith(fileName, item.romHeader) then
      assert fileName[..|item.romHeader|] == item.romHeader;
      true
    else
      fileName == item.gameDir1 || fileName == item.gameDir2
  }

  /** An item whose good name or header name is empty claims every entry. */
  lemma EmptyNameMatchesEverything(item: GameDownloadItem, fileName: string)
    requires item.romGoodName == [] || item.romHeader == []
    ensures IsSimilar(item, fileName)
  {
    assert fileName[..0] == [];
  }

  /** Matching by name prefix survives appending to the entry's name, so
      "Game (U)" claims "Game (U) [!].zip" as well. */
  lemma PrefixMatchExtends(item: GameDownloadItem, fileName: string, suffix: string)
    requires StartsWith(fileName, item.romGoodName) || StartsWith(fileName, item.romHeader)
    ensures IsSimilar(item, fileName + suffix)
  {
    var f := fileName + suffix;
    if StartsWith(fileName, item.romGoodName) {
      assert f[..|item.romGoodName|] == fileName[..|item.romGoodName|];
    } else {
      assert f[..|item.romHeader|] == fileName[..|item.romHeader|];
    }
  }

  /** `containsSimlar`: does any item claim the entry? */
  method ContainsSimilar(items: seq<GameDownloadItem>, fileName: string) returns (found: bool)
    ensures found <==> exists k :: 0 <= k < |items| && IsSimilar(items[k], fileName)
  {
    var i := 0;
    while i < |items|
      invariant 0 <= i <= |items|
      invariant forall k :: 0 <= k < i ==> !IsSimilar(items[k], fileName)
    {
      if IsSimilar(items[i], fileName) {
        return true;
      }
      i := i + 1;
    }
    return false;
  }

  // ---------------------------------------------------------------------
  // Which games a run covers
  // ---------------------------------------------------------------------

  /** The game the service was started for; every field may be absent. */
  datatype Request = Request(
    md5: Option<string>, crc: Option<string>, headerName: Option<string>, goodName: Option<string>,
    countryCode: int)

  /** A run downloads one game, all games, or (with some fields present and
      others absent) nothing. */
  datatype Mode = SingleGame | AllData | Mixed

  function Classify(req: Request): (m: Mode)
    ensures m == SingleGame <==> req.md5.Some? && req.crc.Some? && req.headerName.Some? && req.goodName.Some?
    ensures m == AllData <==> req.md5.None? && req.crc.None? && req.headerName.None? && req.goodName.None?
  {
    if req.md5.Some? && req.crc.Some? && req.headerName.Some? && req.goodName.Some? then SingleGame
    else if req.md5.None? && req.crc.None? && req.headerName.None? && req.goodName.None? then AllData
    else Mixed
  }

  /** The identity the preferences layer derives a game's data directory
      name from. */
  datatype GameId = GameId(md5: string, crc: string, headerName: string, goodName: string, countryCode: int)

  /** A game's two data directory names: the usual one (`false`) and the
      alternate one (`true`). */
  type DirNames = (GameId, bool) -> string

  function ItemFor(id: GameId, dirName: DirNames): GameDownloadItem {
    GameDownloadItem(dirName(id, false), dirName(id, true), id.goodName, id.headerName)
  }

  /** One section of the game database, keyed by the ROM's MD5. */
  datatype Section = Section(name: string, entries: map<string, string>)

  /** The section describes a game: it is not the section-less header block
      and it has all four keys. */
  predicate Eligible(s: Section, sectionlessName: string) {
    && s.name != sectionlessName
    && "crc" in s.entries && "headerName" in s.entries
    && "goodName" in s.entries && "countryCode" in s.entries
  }

  // ---------------------------------------------------------------------
  // Byte.parseByte
  // ---------------------------------------------------------------------

  predicate IsDigit(c: char) {
    '0' <= c <= '9'
  }

  predicate AllDigits(s: string) {
    forall i :: 0 <= i < |s| ==> IsDigit(s[i])
  }

  /** The value of a string of decimal digits, read left to right. */
  function DigitsValue(s: string): (v: nat)
    requires AllDigits(s)
    decreases |s|
  {
    if |s| == 0 then 0
    else DigitsValue(s[..|s| - 1]) * 10 + (s[|s| - 1] as int - '0' as int)
  }

  /** A decimal numeral: an optional sign, then one or more digits. */
  predicate Numeral(s: string) {
    |s| > 0 &&
    if s[0] == '-' || s[0] == '+' then |s| > 1 && AllDigits(s[1..]) else AllDigits(s)
  }

  /** The value a numeral denotes: its digits, negated after a minus sign. */
  function NumeralValue(s: string): int
    requires Numeral(s)
  {
    if s[0] == '-' then -(DigitsValue(s[1..]) as int)
    else if s[0] == '+' then DigitsValue(s[1..])
    else DigitsValue(s)
  }

  /** Decimal `Byte.parseByte`: an optional sign, at least one digit, and a
      value in [-128, 127]; anything else raises an exception, shown as
      `None`. */
  function ParseByte(s: string): (r: Option<int>)
    ensures r.Some? <==> Numeral(s) && -128 <= NumeralValue(s) <= 127
    ensures r.Some? ==> r.value == NumeralValue(s)
    ensures r.Some? ==> -128 <= r.value <= 127
    ensures r.Some? ==> |s| > 0 && AllDigits(s[1..]) && (IsDigit(s[0]) || s[0] == '-' || s[0] == '+')
    ensures |s| > 0 && (s[0] == '-' || s[0] == '+') && |s| == 1 ==> r == None
  {
    if |s| == 0 then None
    else
      var negative := s[0] == '-';
      var digits := if s[0] == '-' || s[0] == '+' then s[1..] else s;
      if |digits| == 0 || !AllDigits(digits) then None
      else
        var v: int := if negative then -(DigitsValue(digits) as int) else DigitsValue(digits);
        if -128 <= v <= 127 then Some(v) else None
  }

  /** Decimal rendering of a natural number, without leading zeros. */
  function ShowNat(n: nat): (s: string)
    ensures |s| > 0 && AllDigits(s)
    decreases n
  {
    if n < 10 then [('0' as int + n) as char]
    else ShowNat(n / 10) + [('0' as int + n % 10) as char]
  }

  /** Decimal rendering of a byte value, as the database stores it. */
  function ShowByte(b: int): (s: string)
    requires -128 <= b <= 127
    ensures |s| > 0
  {
    if b < 0 then "-" + ShowNat(-b) else ShowNat(b)
  }

  lemma {:induction false} DigitsOfShowNat(n: nat)
    ensures DigitsValue(ShowNat(n)) == n
    decreases n
  {
    var s := ShowNat(n);
    if n >= 10 {
      DigitsOfShowNat(n / 10);
      assert s[..|s| - 1] == ShowNat(n / 10);
    }
  }

  /** Every byte value the database writes parses back to itself. */
  lemma ParseByteRoundTrip(b: int)
    requires -128 <= b <= 127
    ensures ParseByte(ShowByte(b)) == Some(b)
  {
    if b < 0 {
      DigitsOfShowNat(-b);
      ParseNegative(ShowNat(-b));
    } else {
      DigitsOfShowNat(b);
      ParseUnsigned(ShowNat(b));
    }
  }

  /** Leading zeros and a plus sign are accepted, as is minus zero. */
  lemma ParseByteAcceptsNumerals()
    ensures ParseByte("007") == Some(7) && ParseByte("+5") == Some(5) && ParseByte("-0") == Some(0)
  {
    assert "007"[..2] == "00" && "00"[..1] == "0" && "0"[..0] == "";
    assert "5"[..0] == "";
  }

  /** A value one past either end of the byte range is rejected. */
  lemma ParseByteRejectsOutOfRange()
    ensures ParseByte("-128") == Some(-128) && ParseByte("128") == None && ParseByte("-129") == None
  {
    assert "128"[..2] == "12" && "12"[..1] == "1" && "1"[..0] == "";
    assert "129"[..2] == "12";
  }

  /** An empty string, a stray character and a doubled sign are rejected. */
  lemma ParseByteRejectsMalformed()
    ensures ParseByte("") == None && ParseByte("1a") == None && ParseByte("--1") == None
  {
    assert !IsDigit("1a"[1]) && !IsDigit("--1"[1]);
  }

  lemma ParseNegative(d: string)
    requires |d| > 0 && AllDigits(d) && DigitsValue(d) <= 128
    ensures ParseByte("-" + d) == Some(-(DigitsValue(d) as int))
  {
    var s := "-" + d;
    assert s[0] == '-' && s[1..] == d;
  }

  lemma ParseUnsigned(d: string)
    requires |d| > 0 && AllDigits(d) && DigitsValue(d) <= 127
    ensures ParseByte(d) == Some(DigitsValue(d) as int)
  {
    assert IsDigit(d[0]);
  }

  // ---------------------------------------------------------------------
  // The all-data item list
  // ---------------------------------------------------------------------

  /** A section whose country code does not parse: the exception ends the
      whole run. */
  predicate Unparsable(s: Section, sectionlessName: string) {
    Eligible(s, sectionlessName) && ParseByte(s.entries["countryCode"]).None?
  }

  /** The item an eligible section with a parsable country code yields. */
  function SectionItem(s: Section, sectionlessName: string, dirName: DirNames): GameDownloadItem
    requires Eligible(s, sectionlessName) && ParseByte(s.entries["countryCode"]).Some?
  {
    var id := GameId(s.name, s.entries["crc"], s.entries["headerName"], s.entries["goodName"],
                     ParseByte(s.entries["countryCode"]).value);
    ItemFor(id, dirName)
  }

  /** The all-data item list: one item per eligible section, in database
      order. `None` when some eligible section's country code does not
      parse. */
  function AllDataItems(sections: seq<Section>, sectionlessName: string, dirName: DirNames)
    : (r: Option<seq<GameDownloadItem>>)
    ensures r.None? <==> exists k :: 0 <= k < |sections| && Unparsable(sections[k], sectionlessName)
    ensures r.Some? ==> |r.value| <= |sections|
    ensures r.Some? ==>
              forall k :: 0 <= k < |sections| && Eligible(sections[k], sectionlessName) ==>
                SectionItem(sections[k], sectionlessName, dirName) in r.value
    ensures r.Some? ==>
              forall item :: item in r.value ==>
                exists k :: 0 <= k < |sections| && Eligible(sections[k], sectionlessName)
                            && !Unparsable(sections[k], sectionlessName)
                            && item == SectionItem(sections[k], sectionlessName, dirName)
    decreases |sections|
  {
    if |sections| == 0 then Some([])
    else
      var s := sections[0];
      var rest := AllDataItems(sections[1..], sectionlessName, dirName);
      assert forall k :: 1 <= k < |sections| ==> sections[k] == sections[1..][k - 1];
      if !Eligible(s, sectionlessName) then rest
      else if ParseByte(s.entries["countryCode"]).None? then None
      else if rest.None? then None
      else Some([SectionItem(s, sectionlessName, dirName)] + rest.value)
  }

  // ---------------------------------------------------------------------
  // Planning a run
  // ---------------------------------------------------------------------

  /** The games a run covers and whether it reaches the download loop. */
  datatype Plan = Plan(items: seq<GameDownloadItem>, download: bool)

  /** The planning half of `handleMessage`. All-data mode lists the
      database; any other mode builds the one requested game's item. The
      loop is reached only with the account's permissions and a mode other
      than `Mixed`; in `Mixed` mode the item built (from absent names) is
      never consulted, so the plan carries none. `None` is the exception
      from an unparsable country code. */
  /** The game a single-game run asks for. */
  function RequestedGame(req: Request): GameId
    requires Classify(req) == SingleGame
  {
    GameId(req.md5.value, req.crc.value, req.headerName.value, req.goodName.value, req.countryCode)
  }

  function Prepare(req: Request, sections: seq<Section>, sectionlessName: string,
                   hasPermissions: bool, dirName: DirNames): (r: Option<Plan>)
    ensures r.None? <==> Classify(req) == AllData && AllDataItems(sections, sectionlessName, dirName).None?
    ensures r.Some? ==> (r.value.download <==> hasPermissions && Classify(req) != Mixed)
    ensures r.Some? && Classify(req) == AllData ==>
              r.value.items == AllDataItems(sections, sectionlessName, dirName).value
    ensures Classify(req) == SingleGame ==>
              && r.Some? && |r.value.items| == 1
              && r.value.items[0].romGoodName == req.goodName.value
              && r.value.items[0].romHeader == req.headerName.value
              && r.value.items[0].gameDir1 == dirName(RequestedGame(req), false)
              && r.value.items[0].gameDir2 == dirName(RequestedGame(req), true)
  {
    match Classify(req)
    case AllData =>
      var items := AllDataItems(sections, sectionlessName, dirName);
      if items.None? then None else Some(Plan(items.value, hasPermissions))
    case SingleGame =>
      Some(Plan([ItemFor(RequestedGame(req), dirName)], hasPermissions))
    case Mixed =>
      Some(Plan([], false))
  }

  // ---------------------------------------------------------------------
  // The download loop
  // ---------------------------------------------------------------------

  /** Longest prefix of an entry name shown in the progress dialog. */
  const MaxStringLength: int := 30

  /** The displayed name: the first 30 characters, or all of a shorter name. */
  function Truncate(name: string): (r: string)
    ensures |r| == Min(|name|, MaxStringLength)
    ensures StartsWith(name, r)
  {
    name[..Min(|name|, MaxStringLength)]
  }

  /** Truncating twice shows the same as truncating once, and a name of at
      most 30 characters is shown whole. */
  lemma TruncateIdempotent(name: string)
    ensures Truncate(Truncate(name)) == Truncate(name)
    ensures |name| <= MaxStringLength ==> Truncate(name) == name
  {
  }

  /** The entries, in order, that some item claims. */
  function Matching(files: seq<string>, items: seq<GameDownloadItem>): seq<string>
    decreases |files|
  {
    if |files| == 0 then []
    else
      var init := Matching(files[..|files| - 1], items);
      var f := files[|files| - 1];
      if exists k :: 0 <= k < |items| && IsSimilar(items[k], f) then init + [f] else init
  }

  /** `Matching` keeps exactly the claimed entries. */
  lemma {:induction false} MatchingIsFilter(files: seq<string>, items: seq<GameDownloadItem>, f: string)
    ensures f in Matching(files, items) <==>
              f in files && exists k :: 0 <= k < |items| && IsSimilar(items[k], f)
    decreases |files|
  {
    if |files| > 0 {
      MatchingIsFilter(files[..|files| - 1], items, f);
      assert files == files[..|files| - 1] + [files[|files| - 1]];
    }
  }

  /** The download loop over the remote entries. Each claimed entry is shown
      truncated and downloaded; after each entry the stop flag (set by the
      progress dialog's cancel) is checked, `stopped[i]` being its value
      after entry `i`. `examined` is how many entries were looked at. */
  method SelectFiles(files: seq<string>, items: seq<GameDownloadItem>, stopped: seq<bool>)
    returns (downloads: seq<string>, shown: seq<string>, examined: nat)
    requires |stopped| == |files|
    ensures examined <= |files|
    ensures forall i :: 0 <= i < examined - 1 ==> !stopped[i]
    ensures examined < |files| ==> examined > 0 && stopped[examined - 1]
    ensures downloads == Matching(files[..examined], items)
    ensures |shown| == |downloads|
    ensures forall i :: 0 <= i < |shown| ==> shown[i] == Truncate(downloads[i])
  {
    downloads, shown, examined := [], [], 0;
    while examined < |files|
      invariant examined <= |files|
      invariant forall i :: 0 <= i < examined ==> !stopped[i]
      invariant downloads == Matching(files[..examined], items)
      invariant |shown| == |downloads|
      invariant forall i :: 0 <= i < |shown| ==> shown[i] == Truncate(downloads[i])
    {
      var f := files[examined];
      var claimed := ContainsSimilar(items, f);
      assert files[..examined + 1][..examined] == files[..examined];
      if claimed {
        downloads := downloads + [f];
        shown := shown + [Truncate(f)];
      }
      examined := examined + 1;
      if stopped[examined - 1] {
        return;
      }
    }
  }
}

=== FILE: feed_window.dfy ===
/** The moving averages kept by the time-stretching consumer: two 500-slot
    ring buffers (seconds between chunk arrivals, seconds of game audio per
    chunk), a write index, a "filled once" flag and a window length that is
    recomputed after every chunk. */
module FeedWindow {
  import opened Common

  const MaxWindowSize: int := 500
  const InitialWindowSize: int := 50
  /** Nominal game time of one chunk (one 60 Hz frame), in seconds. */
  const DefaultSampleLength: real := 0.01666

  /** Sum of a sequence, accumulated left to right as the source's loop does. */
  function Sum(s: seq<real>): real
    decreases |s|
  {
    if |s| == 0 then 0.0 else Sum(s[..|s| - 1]) + s[|s| - 1]
  }

  /** `GetAverageTime`: the mean of the first `numTimes` entries. A count of
      0 would divide by zero, so it is excluded. */
  method GetAverageTime(times: array<real>, numTimes: int) returns (avg: real)
    requires 0 < numTimes <= times.Length
    ensures avg * numTimes as real == Sum(times[..numTimes])
  {
    var sum := 0.0;
    var index := 0;
    while index < numTimes
      invariant 0 <= index <= numTimes
      invariant sum == Sum(times[..index])
    {
      assert times[..index + 1][..index] == times[..index];
      sum := sum + times[index];
      index := index + 1;
    }
    avg := sum / numTimes as real;
  }

  /** Dividing a total by a positive count and multiplying back gives the total. */
  lemma MeanTimesCount(total: real, n: int)
    requires n > 0
    ensures (total / n as real) * n as real == total
  {
  }

  /** The mean of the first `n` entries, as `GetAverageTime` computes it. */
  function Mean(s: seq<real>, n: int): (m: real)
    requires 0 < n <= |s|
    ensures m * n as real == Sum(s[..n])
  {
    MeanTimesCount(Sum(s[..n]), n);
    Sum(s[..n]) / n as real
  }

  /** The consumer's averaging state. */
  datatype Window = Window(
    feedTimes: seq<real>,
    gameTimes: seq<real>,
    index: int,
    filled: bool,
    size: int,
    prevTime: real,
    averageFeedTime: real,
    averageGameTime: real)

  /** Shape every window keeps: two 500-slot buffers, an in-range write
      index, and a window length of at most 500. */
  predicate Valid(w: Window) {
    && |w.feedTimes| == MaxWindowSize
    && |w.gameTimes| == MaxWindowSize
    && 0 <= w.index < MaxWindowSize
    && 0 <= w.size <= MaxWindowSize
  }

  /** The state when the consumer thread starts. */
  function Initial(): (w: Window)
    ensures Valid(w) && !w.filled && w.index == 0 && w.size == InitialWindowSize
    ensures w.averageFeedTime == w.averageGameTime == DefaultSampleLength
  {
    Window(seq(MaxWindowSize, _ => 0.0), seq(MaxWindowSize, _ => 0.0), 0, false,
           InitialWindowSize, 0.0, DefaultSampleLength, DefaultSampleLength)
  }

  /** Number of entries the next averages run over: up to and including the
      write index before the first wrap, the whole window after it. */
  function Span(w: Window): int {
    if w.filled then w.size else w.index + 1
  }

  /** Seconds of game audio in a chunk of `dataLength` bytes. */
  function ChunkGameTime(dataLength: int, gameFreq: int): (t: real)
    requires dataLength >= 0 && gameFreq > 0
    ensures t >= 0.0
    ensures t * (N64SampleBytes * gameFreq) as real == dataLength as real
  {
    dataLength as real / N64SampleBytes as real / gameFreq as real
  }

  /** Record one chunk: write its arrival gap and game time at the write
      index, average both buffers over `Span(w)` entries, then advance the
      index, wrapping to 0 (and marking the window filled) once it reaches
      the window length. The window length itself is not changed here. */
  function Record(w: Window, timeSinceStart: real, gameTime: real): (r: Window)
    requires Valid(w)
    requires 0 < Span(w)
    ensures |r.feedTimes| == |r.gameTimes| == MaxWindowSize
    ensures 0 <= r.index < MaxWindowSize && r.size == w.size
    ensures r.feedTimes == w.feedTimes[w.index := timeSinceStart - w.prevTime]
    ensures r.gameTimes == w.gameTimes[w.index := gameTime]
    ensures r.prevTime == timeSinceStart
    ensures r.averageFeedTime == Mean(r.feedTimes, Span(w))
    ensures r.averageGameTime == Mean(r.gameTimes, Span(w))
    ensures r.filled <==> w.filled || w.index + 1 >= w.size
    ensures w.filled ==> r.filled
    ensures r.index == (if w.index + 1 >= w.size then 0 else w.index + 1)
  {
    var n := Span(w);
    var feed := w.feedTimes[w.index := timeSinceStart - w.prevTime];
    var game := w.gameTimes[w.index := gameTime];
    var next := w.index + 1;
    var wraps := next >= w.size;
    Window(feed, game, if wraps then 0 else next, w.filled || wraps, w.size, timeSinceStart,
           Mean(feed, n), Mean(game, n))
  }

  /** The window length as the source recomputes it: the number of chunks
      of the current average length in 50 nominal chunks, capped at 500 but
      with no lower bound. */
  function ResizeAsWritten(averageGameTime: real): (n: int)
    requires averageGameTime > 0.0
    ensures 0 <= n <= MaxWindowSize
    ensures var x := DefaultSampleLength / averageGameTime * 50.0;
            n < MaxWindowSize ==> n as real <= x < n as real + 1.0
    ensures var x := DefaultSampleLength / averageGameTime * 50.0;
            n == MaxWindowSize <==> x >= MaxWindowSize as real
    ensures averageGameTime * 50.0 > DefaultSampleLength * 50.0 * 50.0 ==> n == 0
  {
    var n := Trunc(DefaultSampleLength / averageGameTime * 50.0);
    if n > MaxWindowSize then MaxWindowSize else n
  }

  /** The window length with the lower bound of one entry that averaging
      over "the window" needs. */
  function ResizeCorrected(averageGameTime: real): (n: int)
    requires averageGameTime > 0.0
    ensures 1 <= n <= MaxWindowSize
    ensures n == ResizeAsWritten(averageGameTime) || (n == 1 && ResizeAsWritten(averageGameTime) == 0)
  {
    var n := ResizeAsWritten(averageGameTime);
    if n < 1 then 1 else n
  }

  /** One consumer iteration's window update, as the source does it. */
  function StepAsWritten(w: Window, timeSinceStart: real, dataLength: int, gameFreq: int): (r: Window)
    requires Valid(w) && 0 < Span(w)
    requires dataLength >= 0 && gameFreq > 0
    requires Record(w, timeSinceStart, ChunkGameTime(dataLength, gameFreq)).averageGameTime > 0.0
    ensures Valid(r)
    ensures w.filled ==> r.filled
    ensures r.averageGameTime > 0.0 && r.size == ResizeAsWritten(r.averageGameTime)
  {
    var r := Record(w, timeSinceStart, ChunkGameTime(dataLength, gameFreq));
    r.(size := ResizeAsWritten(r.averageGameTime))
  }

  lemma SumOne(a: real)
    ensures Sum([a]) == a
  {
    assert [a][..0] == [];
  }

  lemma SumTwo(a: real, b: real)
    ensures Sum([a, b]) == a + b
  {
    assert [a, b][..1] == [a];
    SumOne(a);
  }

  /** Game time of a 65532-byte chunk at 8000 Hz: about 2.05 s. */
  const LongChunk: real := 65532.0 / 32000.0

  lemma LongChunkFacts()
    ensures ChunkGameTime(65532, 8000) == LongChunk
    ensures LongChunk > 0.0 && ResizeAsWritten(LongChunk) == 0
  {
    assert LongChunk * 50.0 > DefaultSampleLength * 50.0 * 50.0;
  }

  /** The first chunk on an unfilled window at index 0 is averaged alone. */
  lemma RecordFirst(w: Window, t: real, g: real)
    requires Valid(w) && w.index == 0 && !w.filled && w.size > 1
    ensures var r := Record(w, t, g);
            r.averageGameTime == g && r.gameTimes[0] == g && r.index == 1 && !r.filled
  {
    var r := Record(w, t, g);
    assert r.gameTimes[..1] == [g];
    SumOne(g);
  }

  /** A chunk of the same game time on an unfilled window of length 0 at
      index 1 averages to that time and wraps the window. */
  lemma RecordSecond(w: Window, t: real, g: real)
    requires Valid(w) && w.index == 1 && !w.filled && w.size == 0 && w.gameTimes[0] == g
    ensures var r := Record(w, t, g);
            r.averageGameTime == g && r.filled && r.size == 0
  {
    var r := Record(w, t, g);
    assert r.gameTimes[..2] == [g, g];
    SumTwo(g, g);
  }

  /** Two chunks of 65532 bytes at 8000 Hz (about 2.05 s of game audio
      each) take the window from its initial state to "filled with length
      0", after which the next average runs over zero entries. */
  lemma WindowCollapsesToZero()
    ensures
      && Record(Initial(), 0.0, ChunkGameTime(65532, 8000)).averageGameTime > 0.0
      && var w1 := StepAsWritten(Initial(), 0.0, 65532, 8000);
      && Valid(w1) && 0 < Span(w1)
      && Record(w1, 2.0, ChunkGameTime(65532, 8000)).averageGameTime > 0.0
      && var w2 := StepAsWritten(w1, 2.0, 65532, 8000);
         w2.filled && w2.size == 0 && Span(w2) == 0
  {
    LongChunkFacts();
    var w0 := Initial();
    RecordFirst(w0, 0.0, LongChunk);
    var w1 := StepAsWritten(w0, 0.0, 65532, 8000);
    RecordSecond(w1, 2.0, LongChunk);
  }

  /** What the corrected window keeps: `Valid` and a length of at least 1,
      so every average runs over at least one entry. */
  predicate Sound(w: Window) {
    Valid(w) && w.size >= 1
  }

  /** One window update with the corrected length. */
  function StepCorrected(w: Window, timeSinceStart: real, dataLength: int, gameFreq: int): (r: Window)
    requires Sound(w)
    requires dataLength >= 0 && gameFreq > 0
    requires Record(w, timeSinceStart, ChunkGameTime(dataLength, gameFreq)).averageGameTime > 0.0
    ensures Sound(r) && 0 < Span(r)
    ensures w.filled ==> r.filled
    ensures r.averageGameTime > 0.0 && r.size == ResizeCorrected(r.averageGameTime)
  {
    var r := Record(w, timeSinceStart, ChunkGameTime(dataLength, gameFreq));
    r.(size := ResizeCorrected(r.averageGameTime))
  }
}

=== FILE: pacing.dfy ===
/** The producer-side pacing governor run by `AiLenChanged` each time the
    emulator hands over a chunk of audio. Wall-clock time, the chunk bytes
    and the speed-limiter query are inputs; instead of sleeping, the step
    returns how long the caller would wait and whether it would spin. Time
    is measured in seconds as a `real`. */
module Pacing {
  import opened Common
  import DeviceQueue

  /** Number of calls after which the busy-wait mode switches. */
  const BusyWaitCheck: int := 30
  /** Slack below which the pacing origin is considered stale. */
  const MinSleepNeededForReset: real := -5.0
  /** Slack below which the origin is moved later (drift guard). */
  const MinSleepNeeded: real := -0.1
  /** Longest wait, in seconds at 100% speed. */
  const MaxSleepNeeded: real := 0.5

  // ---------------------------------------------------------------------
  // Busy-wait hysteresis
  // ---------------------------------------------------------------------

  /** The choice between coarse sleeping and spinning, with its counters. */
  datatype Hysteresis = Hysteresis(busyWait: bool, enableCount: int, disableCount: int)

  const InitialHysteresis: Hysteresis := Hysteresis(false, 0, 0)

  /** What every reachable hysteresis state satisfies. */
  predicate HysteresisInv(h: Hysteresis) {
    && 0 <= h.enableCount < BusyWaitCheck
    && 0 <= h.disableCount <= BusyWaitCheck
    && (h.busyWait ==> h.disableCount < BusyWaitCheck)
  }

  /** This call is the one that switches spinning on. */
  predicate Enables(h: Hysteresis, sleepNeeded: real) {
    sleepNeeded <= 0.0 && h.enableCount + 1 == BusyWaitCheck
  }

  /** One update of the hysteresis for a call whose slack is `sleepNeeded`.
      Non-positive slack counts toward switching spinning on (consecutive
      calls only); positive slack, while spinning, counts toward switching
      it off (not necessarily consecutive). */
  function UpdateHysteresis(h: Hysteresis, sleepNeeded: real): (r: Hysteresis)
    ensures HysteresisInv(h) ==> HysteresisInv(r)
    ensures HysteresisInv(h) ==>
              r.enableCount == (if sleepNeeded <= 0.0 then (h.enableCount + 1) % BusyWaitCheck else 0)
    ensures Enables(h, sleepNeeded) ==> r.busyWait && r.disableCount == 0
    ensures HysteresisInv(h) && !Enables(h, sleepNeeded) && h.busyWait ==>
              (r.busyWait <==> !(sleepNeeded > 0.0 && h.disableCount + 1 == BusyWaitCheck))
    ensures !Enables(h, sleepNeeded) && h.busyWait && sleepNeeded > 0.0 ==>
              r.disableCount == h.disableCount + 1
    ensures !Enables(h, sleepNeeded) && sleepNeeded <= 0.0 ==> r.disableCount == h.disableCount
    ensures !Enables(h, sleepNeeded) && !h.busyWait ==> !r.busyWait && r.disableCount == h.disableCount
  {
    var enable := if sleepNeeded <= 0.0 then h.enableCount + 1 else 0;
    var h1 := if enable == BusyWaitCheck then Hysteresis(true, 0, 0) else h.(enableCount := enable);
    if h1.busyWait then
      var disable := if sleepNeeded > 0.0 then h1.disableCount + 1 else h1.disableCount;
      Hysteresis(disable != BusyWaitCheck, h1.enableCount, disable)
    else
      h1
  }

  /** The hysteresis after a history of slack values, oldest first. */
  function RunHysteresis(h: Hysteresis, history: seq<real>): Hysteresis
    decreases |history|
  {
    if |history| == 0 then h
    else UpdateHysteresis(RunHysteresis(h, history[..|history| - 1]), history[|history| - 1])
  }

  /** Length of the run of non-positive slack values ending the history. */
  function TrailingNonPositive(history: seq<real>): (n: nat)
    ensures n <= |history|
    decreases |history|
  {
    if |history| == 0 || history[|history| - 1] > 0.0 then 0
    else TrailingNonPositive(history[..|history| - 1]) + 1
  }

  /** From the initial state, the enable counter is the length of the
      current run of non-positive slack, modulo 30. */
  lemma {:induction false} EnableCountIsStreak(history: seq<real>)
    ensures HysteresisInv(RunHysteresis(InitialHysteresis, history))
    ensures RunHysteresis(InitialHysteresis, history).enableCount
            == TrailingNonPositive(history) % BusyWaitCheck
    decreases |history|
  {
    if |history| > 0 {
      EnableCountIsStreak(history[..|history| - 1]);
    }
  }

  /** Spinning is switched on by exactly the calls that complete a run of
      non-positive slack whose length is a multiple of 30. */
  lemma BusyWaitEnablesOnThirtieth(history: seq<real>, x: real)
    ensures Enables(RunHysteresis(InitialHysteresis, history), x)
            <==> x <= 0.0 && TrailingNonPositive(history + [x]) % BusyWaitCheck == 0
  {
    EnableCountIsStreak(history);
    var t := TrailingNonPositive(history);
    assert (history + [x])[..|history|] == history;
    if x <= 0.0 {
      assert TrailingNonPositive(history + [x]) == t + 1;
      assert (t % BusyWaitCheck + 1 == BusyWaitCheck) <==> ((t + 1) % BusyWaitCheck == 0);
    }
  }

  // ---------------------------------------------------------------------
  // The pacing step
  // ---------------------------------------------------------------------

  /** The static state of `AiLenChanged`. A `gameStartTime` of 0 stands for
      the clock's epoch, which the source reads as "never started". */
  datatype PacingState = PacingState(
    hasBeenReset: bool,
    totalElapsedSamples: int,
    gameStartTime: real,
    lastSpeedFactor: int,
    lastLimiterState: bool,
    hysteresis: Hysteresis)

  const InitialPacing: PacingState := PacingState(false, 0, 0.0, 100, false, InitialHysteresis)

  /** A chunk handed to the consumer queue, stamped with the seconds since
      the pacing origin. */
  datatype Chunk = Chunk(data: seq<byte>, timeSinceStart: real)

  /** What the caller does after queueing the chunk. */
  datatype Wait = NoWait | Sleep(duration: real, busy: bool)

  /** The result of one call: the new state, the device record shared with
      the consumer, the queued chunk, the slack computed when pacing is
      active, the wait, and whether the origin was reset. */
  datatype Outcome = Outcome(
    state: PacingState,
    sles: DeviceQueue.SlesState,
    chunk: Option<Chunk>,
    slack: Option<real>,
    wait: Wait,
    resetOrigin: bool)

  /** Seconds of game audio `samples` frames represent at `gameFreq` Hz
      played at `speedFactor` percent. */
  function ElapsedGameTime(samples: int, gameFreq: int, speedFactor: int): (t: real)
    requires gameFreq > 0 && speedFactor > 0
    ensures t * (gameFreq as real) * (speedFactor as real) == (samples * 100) as real
  {
    var speed := speedFactor as real / 100.0;
    samples as real / gameFreq as real / speed
  }

  /** The longest slack that is waited on: 0.5 s scaled by the speed. */
  function SleepCeiling(speedFactor: int): (c: real)
    requires speedFactor > 0
    ensures c > 0.0 && c * speedFactor as real == 50.0
  {
    MaxSleepNeeded / (speedFactor as real / 100.0)
  }

  /** The origin is re-established on the first call, after a requested
      reset, or when the speed factor or the limiter state changed. */
  predicate NeedsReset(s: PacingState, speedFactor: int, limiterEnabled: bool) {
    s.gameStartTime == 0.0 || !s.hasBeenReset
    || s.lastSpeedFactor != speedFactor || s.lastLimiterState != limiterEnabled
  }

  /** One call of `AiLenChanged`. Pacing runs only when the limiter query
      returns false. A slack outside `[-5, 0.5/speed]` does not reset at
      once: it clears `hasBeenReset`, and the next call re-originates. A
      slack below -0.1 s moves the origin 0.1 s LATER. Re-originating also
      zeroes the device record's processed-buffer count, which puts the
      stretching consumer back into its warm-up. */
  function AiLenChanged(
    s: PacingState, sles: DeviceQueue.SlesState, criticalFailure: bool, pluginInit: bool,
    now: real, data: seq<byte>, speedFactor: int, gameFreq: int, limiterEnabled: bool): (r: Outcome)
    requires speedFactor > 0 && gameFreq > 0
    ensures criticalFailure || !pluginInit ==> r == Outcome(s, sles, None, None, NoWait, false)
    ensures !criticalFailure && pluginInit ==>
              && r.resetOrigin == NeedsReset(s, speedFactor, limiterEnabled)
              && r.sles == (if r.resetOrigin then sles.(totalBuffersProcessed := 0) else sles)
              && r.chunk.Some? && r.chunk.value.data == data
              && (r.resetOrigin ==> r.chunk.value.timeSinceStart == 0.0)
              && (!r.resetOrigin ==> r.chunk.value.timeSinceStart == now - s.gameStartTime)
              && r.state.totalElapsedSamples
                 == (if r.resetOrigin then 0 else s.totalElapsedSamples) + |data| / N64SampleBytes
              && r.state.lastSpeedFactor == speedFactor
              && r.state.lastLimiterState == limiterEnabled
              && (r.slack.Some? <==> !limiterEnabled)
    ensures !criticalFailure && pluginInit && limiterEnabled ==>
              && r.wait == NoWait
              && r.state.hasBeenReset
              && r.state.hysteresis == s.hysteresis
              && r.state.gameStartTime == now - r.chunk.value.timeSinceStart
    ensures r.slack.Some? ==>
              var x := r.slack.value;
              && r.chunk.Some?
              && x == ElapsedGameTime(r.state.totalElapsedSamples, gameFreq, speedFactor)
                      - r.chunk.value.timeSinceStart
              && (!r.state.hasBeenReset <==> x < MinSleepNeededForReset || x > SleepCeiling(speedFactor))
              && r.state.gameStartTime
                 == now - r.chunk.value.timeSinceStart + (if x < MinSleepNeeded then 0.1 else 0.0)
              && r.state.hysteresis == UpdateHysteresis(s.hysteresis, x)
              && (r.wait.Sleep? <==> 0.0 < x < SleepCeiling(speedFactor))
              && (r.wait.Sleep? ==> r.wait.duration == x && r.wait.busy == r.state.hysteresis.busyWait)
    ensures HysteresisInv(s.hysteresis) ==> HysteresisInv(r.state.hysteresis)
  {
    if criticalFailure || !pluginInit then Outcome(s, sles, None, None, NoWait, false)
    else
      var reset := NeedsReset(s, speedFactor, limiterEnabled);
      var start := if reset then now else s.gameStartTime;
      var limiterState := if reset then limiterEnabled else s.lastLimiterState;
      var samples := (if reset then 0 else s.totalElapsedSamples) + |data| / N64SampleBytes;
      var chunk := Chunk(data, now - start);
      var gameTime := ElapsedGameTime(samples, gameFreq, speedFactor);
      var base := PacingState(true, samples, start, speedFactor, limiterState, s.hysteresis);
      var sles' := if reset then sles.(totalBuffersProcessed := 0) else sles;
      if limiterEnabled then
        Outcome(base, sles', Some(chunk), None, NoWait, reset)
      else
        var sleepNeeded := gameTime - chunk.timeSinceStart;
        var ceiling := SleepCeiling(speedFactor);
        var stale := sleepNeeded < MinSleepNeededForReset || sleepNeeded > ceiling;
        // subtracting the negative MinSleepNeeded moves the origin later
        var start' := if sleepNeeded < MinSleepNeeded then start - MinSleepNeeded else start;
        var h := UpdateHysteresis(s.hysteresis, sleepNeeded);
        var wait := if 0.0 < sleepNeeded < ceiling then Sleep(sleepNeeded, h.busyWait) else NoWait;
        Outcome(base.(hasBeenReset := !stale, gameStartTime := start', hysteresis := h),
                sles', Some(chunk), Some(sleepNeeded), wait, reset)
  }

  /** A stale slack is acted on lazily: the call that sees it only clears
      `hasBeenReset`, and the next call re-originates, stamping its chunk
      with time 0 and restarting the sample count from that chunk alone. */
  lemma ResetIsLazy(
    s: PacingState, sles: DeviceQueue.SlesState, now1: real, data1: seq<byte>, now2: real, data2: seq<byte>,
    speedFactor: int, gameFreq: int, limiterEnabled: bool)
    requires speedFactor > 0 && gameFreq > 0
    requires !AiLenChanged(s, sles, false, true, now1, data1, speedFactor, gameFreq, limiterEnabled).state.hasBeenReset
    ensures
      var r1 := AiLenChanged(s, sles, false, true, now1, data1, speedFactor, gameFreq, limiterEnabled);
      var r2 := AiLenChanged(r1.state, r1.sles, false, true, now2, data2, speedFactor, gameFreq, limiterEnabled);
      && !limiterEnabled
      && r1.slack.Some?
      && r2.resetOrigin
      && r2.chunk.Some? && r2.chunk.value.timeSinceStart == 0.0
      && r2.state.totalElapsedSamples == |data2| / N64SampleBytes
      && r2.sles.totalBuffersProcessed == 0
  {
  }

  /** A wait is only ever requested for a slack that keeps the origin. */
  lemma SleepKeepsOrigin(
    s: PacingState, sles: DeviceQueue.SlesState, now: real, data: seq<byte>,
    speedFactor: int, gameFreq: int, limiterEnabled: bool)
    requires speedFactor > 0 && gameFreq > 0
    ensures
      var r := AiLenChanged(s, sles, false, true, now, data, speedFactor, gameFreq, limiterEnabled);
      r.wait.Sleep? ==>
        && !limiterEnabled
        && r.state.hasBeenReset
        && r.state.gameStartTime == now - r.chunk.value.timeSinceStart
        && 0.0 < r.wait.duration < SleepCeiling(speedFactor)
  {
  }
}

=== FILE: plugin.dfy ===
/** The plugin entry points that configure the pipeline: deriving the game's
    sample rate from the audio DAC register, choosing the output rate,
    (re)initialising the device state, and the speed-factor setter. */
module Plugin {
  import opened Common
  import DeviceQueue

  /** The TV system the host reports. Unknown codes behave like NTSC. */
  datatype SystemType = NTSC | PAL | MPAL | OtherSystem(code: int)

  /** Per-system clock from which the DAC rate divides the sample rate. */
  function DacClock(system: SystemType): int {
    match system
    case PAL => 49656530
    case MPAL => 48628316
    case _ => 48681812
  }

  /** Largest value of the unsigned 32-bit DAC rate register. */
  const MaxRegister: int := TwoTo32 - 1

  /** Requests below this many Hz are ignored as bogus. */
  const MinAcceptedFrequency: int := 4000

  /** The game sample rate for a DAC rate register value. The divisor
      `register + 1` is computed in unsigned 32-bit arithmetic, so the
      largest register value would wrap it to 0 and divide by zero. */
  function GameFrequency(system: SystemType, register: int): (f: int)
    requires 0 <= register < MaxRegister
    ensures 0 <= f <= DacClock(system)
    ensures f * (register + 1) <= DacClock(system) < (f + 1) * (register + 1)
  {
    DacClock(system) / (register + 1)
  }

  /** Multiplying by a non-negative factor preserves order. */
  lemma MulMonotone(a: int, b: int, c: int)
    requires a <= b && c >= 0
    ensures a * c <= b * c
  {
  }

  /** `q` is at most the quotient whenever `q` divisors fit in the clock. */
  lemma QuotientIsLargest(c: int, d: int, q: int)
    requires c >= 0 && d > 0
    requires q * d <= c
    ensures q <= c / d
  {
    var f := c / d;
    if q > f {
      MulMonotone(f + 1, q, d);
    }
  }

  /** A larger register value never yields a higher sample rate. */
  lemma GameFrequencyAntitone(system: SystemType, r1: int, r2: int)
    requires 0 <= r1 <= r2 < MaxRegister
    ensures GameFrequency(system, r2) <= GameFrequency(system, r1)
  {
    var f2 := GameFrequency(system, r2);
    MulMonotone(r1 + 1, r2 + 1, f2);
    QuotientIsLargest(DacClock(system), r1 + 1, f2);
  }

  /** Exactly the register values with `4000 * (register + 1) <= clock`
      produce a frequency the initialisation accepts. */
  lemma AcceptedRegisters(system: SystemType, register: int)
    requires 0 <= register < MaxRegister
    ensures GameFrequency(system, register) >= MinAcceptedFrequency
            <==> MinAcceptedFrequency * (register + 1) <= DacClock(system)
  {
    var c := DacClock(system);
    var f := GameFrequency(system, register);
    if f >= MinAcceptedFrequency {
      MulMonotone(MinAcceptedFrequency, f, register + 1);
    }
    if MinAcceptedFrequency * (register + 1) <= c {
      QuotientIsLargest(c, register + 1, MinAcceptedFrequency);
    }
  }

  /** Output rates a non-zero sampling-rate selection may name. */
  predicate SupportedSelection(selection: int) {
    selection == 16000 || selection == 24000 || selection == 32000
    || selection == 44100 || selection == 48000
  }

  /** Every rate the device can be opened with. */
  predicate OutputRate(rate: int) {
    SupportedSelection(rate) || rate == 11025 || rate == 22050
  }

  /** The output rate for a game frequency. Selection 0 picks the rate by
      the frequency in whole kHz (C integer division); any other selection
      is used as given when supported and falls back to 32000 otherwise. */
  function SelectOutputRate(selection: int, freq: int): (rate: int)
    ensures OutputRate(rate)
    ensures selection == 0 ==>
              && (rate == 11025 <==> freq < 12000)
              && (rate == 22050 <==> 12000 <= freq < 23000)
              && (rate == 32000 <==> 23000 <= freq < 33000)
              && (rate == 44100 <==> 33000 <= freq)
    ensures selection != 0 ==> (rate == selection <==> SupportedSelection(selection))
    ensures selection != 0 && !SupportedSelection(selection) ==> rate == 32000
  {
    if selection == 0 then
      var khz := CDiv(freq, 1000);
      if khz <= 11 then 11025
      else if khz <= 22 then 22050
      else if khz <= 32 then 32000
      else 44100
    else if SupportedSelection(selection) then selection
    else 32000
  }

  /** The plugin's configuration section, reloaded on every initialisation. */
  datatype Config = Config(
    defaultFrequency: int,
    swapChannels: bool,
    primaryBufferSize: int,
    secondaryBufferSize: int,
    targetSecondaryBuffers: int,
    samplingRate: int,
    timeStretchEnabled: bool)

  /** Which consumer thread runs, if any. */
  datatype Consumer = NoConsumer | StretchConsumer | FixedTempoConsumer

  /** The plugin-wide state that initialisation rewrites. */
  datatype Audio = Audio(
    pluginInit: bool,
    config: Config,
    gameFreq: int,
    outputFreq: int,
    primaryBufferBytes: int,
    device: DeviceQueue.Output,
    criticalFailure: bool,
    consumer: Consumer)

  /** `InitializeAudio(freq)`. The configuration is always reloaded first
      (so an ignored request still resets the game frequency to the
      configured default). Requests below 4000 Hz, or after a critical
      failure, stop there. Otherwise the game frequency and output rate are
      set, the buffers and the occupancy record are rebuilt, and
      `deviceOk` (the outcome of the device set-up calls) decides between
      starting a consumer and entering the critical-failure state. */
  function InitializeAudio(a: Audio, cfg: Config, freq: int, deviceOk: bool): (r: Audio)
    ensures r.config == cfg && r.pluginInit == a.pluginInit
    ensures freq < MinAcceptedFrequency || a.criticalFailure ==>
              r == a.(config := cfg, gameFreq := cfg.defaultFrequency)
    ensures freq >= MinAcceptedFrequency && !a.criticalFailure ==>
              && r.gameFreq == freq
              && OutputRate(r.outputFreq)
              && r.outputFreq == SelectOutputRate(cfg.samplingRate, freq)
              && r.device == DeviceQueue.Fresh()
              && r.criticalFailure == !deviceOk
              && (r.consumer != NoConsumer <==> deviceOk)
              && (deviceOk ==> (r.consumer == StretchConsumer <==> cfg.timeStretchEnabled))
              && (deviceOk ==> r.primaryBufferBytes == cfg.primaryBufferSize * 4)
              && (!deviceOk ==> r.primaryBufferBytes == 0)
  {
    var reloaded := a.(config := cfg, gameFreq := cfg.defaultFrequency);
    if freq < MinAcceptedFrequency || a.criticalFailure then reloaded
    else
      var rebuilt := reloaded.(
        gameFreq := freq,
        outputFreq := SelectOutputRate(cfg.samplingRate, freq),
        device := DeviceQueue.Fresh());
      if deviceOk then
        rebuilt.(primaryBufferBytes := cfg.primaryBufferSize * 4,
                 consumer := if cfg.timeStretchEnabled then StretchConsumer else FixedTempoConsumer)
      else
        // the failure path closes everything again and latches the failure
        rebuilt.(primaryBufferBytes := 0, criticalFailure := true, consumer := NoConsumer)
  }

  /** Re-initialising with the same configuration and request, when the
      device comes up both times, leaves the state as one initialisation
      did. (After a device failure it does not: the second call reloads the
      configured default frequency and stops at the latched failure.) */
  lemma InitializeIdempotent(a: Audio, cfg: Config, freq: int)
    ensures InitializeAudio(InitializeAudio(a, cfg, freq, true), cfg, freq, true)
            == InitializeAudio(a, cfg, freq, true)
  {
  }

  /** `AiDacrateChanged`: derive the game frequency from the register and
      re-initialise with it; nothing happens before plugin start-up. */
  function AiDacrateChanged(a: Audio, system: SystemType, register: int, cfg: Config, deviceOk: bool): (r: Audio)
    requires 0 <= register < MaxRegister
    ensures !a.pluginInit ==> r == a
    ensures a.pluginInit && !a.criticalFailure && MinAcceptedFrequency * (register + 1) <= DacClock(system) ==>
              r.gameFreq * (register + 1) <= DacClock(system) < (r.gameFreq + 1) * (register + 1)
              && r.device == DeviceQueue.Fresh()
    ensures a.pluginInit && MinAcceptedFrequency * (register + 1) > DacClock(system) ==>
              r == a.(config := cfg, gameFreq := cfg.defaultFrequency)
    ensures a.pluginInit && a.criticalFailure ==>
              r == a.(config := cfg, gameFreq := cfg.defaultFrequency)
    ensures a.pluginInit && !a.criticalFailure && MinAcceptedFrequency * (register + 1) <= DacClock(system) ==>
              && r.outputFreq == SelectOutputRate(cfg.samplingRate, r.gameFreq)
              && r.criticalFailure == !deviceOk
              && (r.consumer != NoConsumer <==> deviceOk)
    ensures a.pluginInit ==> r == InitializeAudio(a, cfg, GameFrequency(system, register), deviceOk)
  {
    if !a.pluginInit then a
    else
      AcceptedRegisters(system, register);
      InitializeAudio(a, cfg, GameFrequency(system, register), deviceOk)
  }

  /** Playback speed percentages the setter accepts. */
  predicate ValidSpeedFactor(percentage: int) {
    10 <= percentage <= 300
  }

  /** `SetSpeedFactor`: the speed factor changes only once the plugin is
      started and only to a percentage in [10, 300]. */
  function SetSpeedFactor(pluginInit: bool, current: int, percentage: int): (r: int)
    ensures r == current || r == percentage
    ensures r != current ==> pluginInit && ValidSpeedFactor(percentage)
    ensures pluginInit && ValidSpeedFactor(percentage) ==> r == percentage
    ensures ValidSpeedFactor(current) ==> ValidSpeedFactor(r)
  {
    if !pluginInit then current
    else if percentage >= 10 && percentage <= 300 then percentage
    else current
  }
}

=== FILE: tempo.dfy ===
/** The adaptive tempo controller of the time-stretching consumer: queue
    thresholds derived from the configuration, and the per-chunk decision
    that speeds playback up while the device queue is too full, slows it
    down when the queue runs dry, and otherwise follows the ratio of game
    time to arrival time. */
module Tempo {
  import opened Common

  /** Frequency and buffer size the thresholds are scaled against. */
  const DefaultFrequency: int := 33600
  const DefaultSecondaryBufferSize: int := 256

  /** Adjustments are adopted only strictly inside this band. */
  const MinSlowValue: real := 0.2
  const MaxSlowValue: real := 3.0
  /** Largest extra tempo from the queue-length term. */
  const MaxSpeedUpRate: real := 0.5
  /** Tempo reduction while the device queue runs dry. */
  const SlowRate: real := 0.05
  /** Adopted tempos are rounded to steps of this many percent. */
  const Increments: int := 4

  // ---------------------------------------------------------------------
  // Queue thresholds
  // ---------------------------------------------------------------------

  datatype QueueBounds = QueueBounds(minQueueSize: int, maxQueueSize: int)

  /** Scale factor from the default output rate and buffer size to the
      configured ones. */
  function BufferMultiplier(outputFreq: int, secondaryBufferSize: int): real
    requires secondaryBufferSize > 0
  {
    (outputFreq as real / DefaultFrequency as real)
    * (DefaultSecondaryBufferSize as real / secondaryBufferSize as real)
  }

  /** A buffer count scaled to the configured rate and buffer size,
      truncated toward zero as the source's `(int)` cast does. */
  function ScaledCount(count: real, outputFreq: int, secondaryBufferSize: int): int
    requires secondaryBufferSize > 0
  {
    Trunc(count * BufferMultiplier(outputFreq, secondaryBufferSize))
  }

  /** The thresholds computed when the consumer starts: the target count
      plus 30, and the target count, both scaled; only the upper one is
      capped, at 20 below the device limit. */
  function QueueSizing(outputFreq: int, secondaryBufferSize: int, target: int, limit: int): (b: QueueBounds)
    requires secondaryBufferSize > 0
    ensures b.maxQueueSize <= limit - 20
    ensures b.maxQueueSize == Min(ScaledCount(target as real + 30.0, outputFreq, secondaryBufferSize), limit - 20)
    ensures b.minQueueSize == ScaledCount(target as real, outputFreq, secondaryBufferSize)
  {
    var bufferLimit := limit - 20;
    var maxQueueSize := ScaledCount(target as real + 30.0, outputFreq, secondaryBufferSize);
    QueueBounds(ScaledCount(target as real, outputFreq, secondaryBufferSize),
                if maxQueueSize > bufferLimit then bufferLimit else maxQueueSize)
  }

  /** Unless the cap at limit minus 20 applies, the lower threshold is at
      most the upper one. */
  lemma UncappedThresholdsOrdered(outputFreq: int, secondaryBufferSize: int, target: int, limit: int)
    requires secondaryBufferSize > 0 && outputFreq >= 0 && target >= 0
    requires ScaledCount(target as real + 30.0, outputFreq, secondaryBufferSize) <= limit - 20
    ensures QueueSizing(outputFreq, secondaryBufferSize, target, limit).minQueueSize
            <= QueueSizing(outputFreq, secondaryBufferSize, target, limit).maxQueueSize
  {
    var m := BufferMultiplier(outputFreq, secondaryBufferSize);
    var lo, hi := target as real * m, (target as real + 30.0) * m;
    MultiplierNonNegative(outputFreq, secondaryBufferSize);
    assert lo <= hi by { ScaleMonotone(target as real, target as real + 30.0, m); }
    TruncMonotone(lo, hi);
    var b := QueueSizing(outputFreq, secondaryBufferSize, target, limit);
    assert b.minQueueSize == Trunc(lo);
    assert b.maxQueueSize == Trunc(hi);
  }

  /** A non-negative output rate gives a non-negative scale factor. */
  lemma MultiplierNonNegative(outputFreq: int, secondaryBufferSize: int)
    requires secondaryBufferSize > 0 && outputFreq >= 0
    ensures BufferMultiplier(outputFreq, secondaryBufferSize) >= 0.0
  {
    var rate := outputFreq as real / DefaultFrequency as real;
    var size := DefaultSecondaryBufferSize as real / secondaryBufferSize as real;
    assert rate >= 0.0 && size >= 0.0;
    ScaleMonotone(0.0, rate, size);
  }

  /** Scaling by a non-negative factor preserves order. */
  lemma ScaleMonotone(x: real, y: real, m: real)
    requires x <= y && m >= 0.0
    ensures x * m <= y * m
  {
  }

  /** The lower threshold is not bounded by the upper one: at 48000 Hz
      with 64-frame buffers and the default target of 20, the lower
      threshold is 114 while the upper one is capped at 80. */
  lemma MinMayExceedMax()
    ensures QueueSizing(48000, 64, 20, 100) == QueueBounds(114, 80)
  {
    var m := BufferMultiplier(48000, 64);
    assert m == 48000.0 / 33600.0 * 4.0;
    assert ScaledCount(50.0, 48000, 64) == 285;
    assert ScaledCount(20.0, 48000, 64) == 114;
  }

  // ---------------------------------------------------------------------
  // The controller
  // ---------------------------------------------------------------------

  /** A double that may have become infinite or NaN. Both kinds fail the
      band test and absorb any further addition, so they need not be told
      apart. */
  datatype Adjustment = Finite(v: real) | NonFinite

  function Plus(a: Adjustment, b: Adjustment): (r: Adjustment)
    ensures r.Finite? <==> a.Finite? && b.Finite?
    ensures r.Finite? ==> r.v == a.v + b.v
  {
    if a.Finite? && b.Finite? then Finite(a.v + b.v) else NonFinite
  }

  /** The queue-length term of the speed-up: how far the queue length is
      above the lower threshold, relative to the span from the lower
      threshold to the limit, times 0.5. With the lower threshold equal to
      the limit the float division has no finite result. */
  function SpeedUp(queueLength: int, bounds: QueueBounds, limit: int): (r: Adjustment)
    ensures r.Finite? <==> limit != bounds.minQueueSize
    ensures r.Finite? ==>
              r.v * (limit - bounds.minQueueSize) as real
              == (queueLength - bounds.minQueueSize) as real * MaxSpeedUpRate
  {
    if limit == bounds.minQueueSize then NonFinite
    else
      var span := (limit - bounds.minQueueSize) as real;
      var q := (queueLength - bounds.minQueueSize) as real / span;
      assert q * span == (queueLength - bounds.minQueueSize) as real;
      Finite(q * MaxSpeedUpRate)
  }

  /** A tempo on the 4% grid, within [0.2, 3.0]. */
  predicate OnTempoGrid(t: real) {
    MinSlowValue <= t <= MaxSlowValue && (t * 25.0).Floor as real == t * 25.0
  }

  /** Round an adjustment inside the band to the nearest 4% step. */
  function Quantize(a: real): (t: real)
    requires MinSlowValue < a < MaxSlowValue
    ensures OnTempoGrid(t)
    ensures a - 0.02 <= t <= a + 0.02
    ensures t * 25.0 == Round(a * 25.0) as real
  {
    var steps := Round(a * 100.0 / Increments as real);
    assert a * 100.0 / Increments as real == a * 25.0;
    assert 5 <= steps <= 75;
    var t := (steps * Increments) as real / 100.0;
    assert t * 25.0 == steps as real;
    t
  }

  /** A halfway adjustment rounds away from zero: 1.5 is 37.5 steps of
      4%, which become 38 steps, a tempo of 1.52. */
  lemma QuantizeHalfwayRoundsUp()
    ensures Quantize(1.5) == 1.52
  {
    var t := Quantize(1.5);
    assert t * 25.0 == Round(37.5) as real;
  }

  /** The consumer's controller state. `tempo` is the tempo last handed to
      the stretch engine. */
  datatype Controller = Controller(
    drainQueue: bool,
    currAdjustment: Adjustment,
    slowAdjustment: real,
    tempo: real)

  /** The state when the consumer thread starts. */
  function InitialController(speedFactor: int): (c: Controller)
    ensures !c.drainQueue && c.currAdjustment == Finite(1.0) && c.slowAdjustment == 1.0
    ensures c.tempo * 100.0 == speedFactor as real
  {
    Controller(false, Finite(1.0), 1.0, speedFactor as real / 100.0)
  }

  /** The queue has run dry: fewer buffers queued than the lower threshold. */
  predicate RanDry(queueLength: int, bounds: QueueBounds) {
    queueLength < bounds.minQueueSize
  }

  /** Adopt an adjustment strictly inside (0.2, 3.0), rounded to the grid;
      anything else (including a non-finite value) leaves the tempo as it
      was. There is no clamping. */
  function Adopt(c: Controller, drain: bool, adj: Adjustment): (r: Controller)
    ensures r.drainQueue == drain && r.currAdjustment == adj
    ensures adj.Finite? && MinSlowValue < adj.v < MaxSlowValue ==>
              && OnTempoGrid(r.tempo) && adj.v - 0.02 <= r.tempo <= adj.v + 0.02
              && r.tempo == Quantize(adj.v)
              && r.slowAdjustment == r.tempo
    ensures !(adj.Finite? && MinSlowValue < adj.v < MaxSlowValue) ==>
              r.tempo == c.tempo && r.slowAdjustment == c.slowAdjustment
  {
    if adj.Finite? && MinSlowValue < adj.v < MaxSlowValue then
      var t := Quantize(adj.v);
      Controller(drain, adj, t, t)
    else
      Controller(drain, adj, c.slowAdjustment, c.tempo)
  }

  /** One controller decision, before the chunk is processed. During the
      warm-up (`processed < limit`) the tempo is the speed factor alone.
      After it: a too-full queue (or continued draining) that is not dry
      enters draining and raises the tempo by the queue-length term; a dry
      queue leaves draining and lowers it by 0.05; a queue below the upper
      threshold follows the ratio; a queue exactly at the upper threshold
      while not draining keeps the previous adjustment. */
  function ControllerStep(
    c: Controller, processed: int, limit: int, queueLength: int,
    bounds: QueueBounds, ratio: Adjustment, speedFactor: int): (r: Controller)
    ensures processed < limit ==> r == c.(tempo := speedFactor as real / 100.0)
    ensures processed >= limit ==>
              var dry := RanDry(queueLength, bounds);
              && ((queueLength > bounds.maxQueueSize || c.drainQueue) && !dry ==>
                    r.drainQueue && r.currAdjustment == Plus(ratio, SpeedUp(queueLength, bounds, limit)))
              && (dry ==> !r.drainQueue && r.currAdjustment == Plus(ratio, Finite(-SlowRate)))
              && (!dry && !c.drainQueue && queueLength < bounds.maxQueueSize ==>
                    !r.drainQueue && r.currAdjustment == ratio)
              && (!dry && !c.drainQueue && queueLength == bounds.maxQueueSize ==>
                    !r.drainQueue && r.currAdjustment == c.currAdjustment)
    ensures processed >= limit ==>
              var a := r.currAdjustment;
              if a.Finite? && MinSlowValue < a.v < MaxSlowValue then
                OnTempoGrid(r.tempo) && a.v - 0.02 <= r.tempo <= a.v + 0.02 && r.tempo == Quantize(a.v)
              else
                r.tempo == c.tempo
  {
    if processed < limit then c.(tempo := speedFactor as real / 100.0)
    else
      var dry := RanDry(queueLength, bounds);
      if (queueLength > bounds.maxQueueSize || c.drainQueue) && !dry then
        Adopt(c, true, Plus(ratio, SpeedUp(queueLength, bounds, limit)))
      else if dry then
        Adopt(c, false, Plus(ratio, Finite(-SlowRate)))
      else if queueLength < bounds.maxQueueSize then
        Adopt(c, c.drainQueue, ratio)
      else
        Adopt(c, c.drainQueue, c.currAdjustment)
  }

  /** After the warm-up the tempo is either left alone or moved onto the
      grid, so once on the grid it never leaves [0.2, 3.0]. */
  lemma TempoStaysOnGrid(
    c: Controller, processed: int, limit: int, queueLength: int,
    bounds: QueueBounds, ratio: Adjustment, speedFactor: int)
    requires processed >= limit
    requires OnTempoGrid(c.tempo)
    ensures OnTempoGrid(ControllerStep(c, processed, limit, queueLength, bounds, ratio, speedFactor).tempo)
  {
  }

  /** A starving device lowers the tempo to within one grid step of the
      ratio minus 0.05, never below 0.2. */
  lemma StarvationSlowsDown(
    c: Controller, processed: int, limit: int, queueLength: int,
    bounds: QueueBounds, ratio: real, speedFactor: int)
    requires processed >= limit
    requires RanDry(queueLength, bounds)
    requires MinSlowValue + SlowRate < ratio < MaxSlowValue + SlowRate
    ensures
      var r := ControllerStep(c, processed, limit, queueLength, bounds, Finite(ratio), speedFactor);
      && !r.drainQueue
      && MinSlowValue <= r.tempo <= ratio - SlowRate + 0.02
  {
  }

  /** With a healthy queue and arrivals keeping pace with game time
      (ratio 1), the tempo is exactly 1. */
  lemma HealthyQueueKeepsUnitTempo(
    c: Controller, processed: int, limit: int, queueLength: int,
    bounds: QueueBounds, speedFactor: int)
    requires processed >= limit && !c.drainQueue
    requires bounds.minQueueSize <= queueLength < bounds.maxQueueSize
    ensures
      var r := ControllerStep(c, processed, limit, queueLength, bounds, Finite(1.0), speedFactor);
      !r.drainQueue && r.tempo == 1.0
  {
    var r := ControllerStep(c, processed, limit, queueLength, bounds, Finite(1.0), speedFactor);
    assert Round(1.0 * 100.0 / Increments as real) == 25;
  }
}
